=== FILE: README.md ===
# Cache-aside user records and the `/data` demo server

This project models the cache-aside protocol of a small Express service. A
key/value cache sits in front of a relational `users` table.

- The user controller has five handlers: read all users, read one user,
  create users, update a user and delete a user.
- Reads fill the cache on a miss: `users` holds the whole collection and
  `user:<id>` holds one row, each for 300 seconds.
- Writes invalidate it. A create drops `users`. An update or a delete drops
  `users` and `user:<id>`, but only when a row was affected.
- A separate cache-only server serves `/data`. Reading an item returns it
  from the cache, or makes one up as `{ id, value: "Value for <id>" }` and
  caches it for 60 seconds. Listing returns every key with its parsed value.
  A post drops the item's key and stores nothing.

Each handler is a pure function. It takes the cache, the table, the request
and a store fault, and returns the response together with the cache and table
afterwards. The modules are:

- `Options` holds the optional value used for missing properties, keys and
  rows.
- `Decimal` handles decimal text. It covers how MySQL reads a path
  parameter as an integer id, and how an id is written back into a key.
- `Json` covers JSON values with JavaScript property access, truthiness and
  `String(v)`.
- `Http` holds the responses a handler sends.
- `Faults` models store failures. A failure is identified by the index of
  the store call that fails.
- `Codec` is a serialization standing in for `JSON.stringify` and
  `JSON.parse`, with its round trip proved.
- `CacheStore` and `RecordStore` are the two stores as finite maps.
- `UserController` holds the five handlers.
- `Coherence` states that cache entries agree with the table. It proves the
  corrected handlers keep that true, and so do the handlers as written when
  the parameter is a canonical numeral and no upsert overwrites a row.
- `UserScenarios` holds request sequences against the user handlers.
- `DataServer` and `DataProperties` cover the `/data` server.

`UserController` takes a `Policy` parameter:

- `AsWritten` keys per-user entries by the raw path parameter. Its
  `createUser` drops only `users`. This is exactly what the controller does.
- `Corrected` keys entries by the canonical id, and also drops the entries
  of rows that an upsert overwrote. See "## Findings".

Three behaviours of the code are easy to miss:

- A `null` element in `users` answers 500, because destructuring it throws
  before the field check can answer 400.
- `POST /data` answers the same whether or not the key existed. It does not
  report whether a key was removed.
- As written, `createUser` can overwrite an existing row without dropping
  that row's `user:<id>` entry (Finding 1).

## Model

| member | source | states |
|---|---|---|
| UserController.GetUsers | controllers/userController.js:5-20 | A hit serves the parsed cached text and leaves the cache and table alone. A miss answers `{ success: true, data }` with the full scan and stores the scan's encoding under `users` for 300 s. Any store failure answers 500 `{ success: false, error }` with both stores unchanged. |
| UserController.UserKey | controllers/userController.js:26 | Every per-user key starts with `user:`, so it is never `users`. As written, the rest is the raw parameter. Corrected, the rest is a numeral naming the same row as the parameter. |
| Coherence.UserKeysAgree | controllers/userController.js:26 | As written, two parameters share an entry exactly when they are the same text. Corrected, they share one exactly when they name the same row. |
| UserController.GetUserById | controllers/userController.js:23-41 | A hit serves the parsed entry. A miss with no row answers 404 and writes nothing. A miss with a row answers `{ success: true, data: row }` and caches exactly that row under the request's key for 300 s. Only that key may change, and the table never does. |
| UserController.IsUserList | controllers/userController.js:47 | A body passes the check exactly when its `users` is an array with at least one element. A missing `users`, any value that is not an array, and the empty array all fail it. |
| UserController.Validate | controllers/userController.js:51-56 | The loop accepts exactly when every element is non-null with a truthy name and email, and then yields their pairs in order. It stops at a null element (a TypeError) exactly when that element comes before any element lacking a field. |
| UserController.RequestedUsers | controllers/userController.js:58 | A valid request yields one `[name, email]` pair per element, in order. |
| UserController.CreateUser | controllers/userController.js:44-68 | A non-array or empty `users` answers 400. A missing field answers 400, and a null element answers 500. A request that does not validate changes neither store. On success it upserts every pair, answers 201 with the affected-row count, and removes the policy's keys. As written it removes only `users` and leaves every other entry as it was. A failed invalidation keeps the upsert. |
| UserController.CreateInvalidates | controllers/userController.js:62 | A create always drops `users`. As written, that is all it drops. Corrected, it also drops the key of every overwritten row, and nothing else. |
| UserController.UpdatedUser | controllers/userController.js:74-76 | The row an update writes takes the body's `name` and `email`. A field the body lacks is bound as SQL NULL, and a body that is not an object writes NULL to both. |
| UserController.InvalidateRow | controllers/userController.js:79-81 | It drops `users` and then the row's key, and answers only when both deletions succeed. If the first deletion fails, the cache is unchanged. If the second fails, only `users` is gone. The table change stands either way. |
| UserController.UpdateUser | controllers/userController.js:71-85 | No matching row answers 404 and changes neither store. A unique-value clash answers 500 and changes nothing. It answers 200 exactly when the row exists, the update is legal and no store call fails. Then the row holds the new pair, `users` and the row's key are gone, and no other entry changed. If a cache deletion fails after the update, it answers 500 with the store's message, and the updated row stands. |
| UserController.DeleteUser | controllers/userController.js:88-101 | No matching row answers 404 and changes neither store. It answers 200 exactly when the row existed and no store call fails. Then the row is gone, `users` and the row's key are gone, and no other entry changed. If a cache deletion fails after the delete, it answers 500 with the store's message, and the deletion stands. |
| Http.ServeCached | controllers/userController.js:8-10 | A hit answers 200 with the parsed text. Text that does not parse falls into the handler's 500 path. |
| CacheStore.Hit | controllers/userController.js:7-8 | The `if (cached)` test passes exactly when the key is present with a non-empty text, and yields that text. |
| CacheStore.SetEx | controllers/userController.js:15 | The key now holds the text with its TTL. No other key changes. |
| CacheStore.Del | controllers/userController.js:62 | Exactly the listed keys are gone. Every other entry is unchanged. |
| CacheStore.Expire | controllers/userController.js:36 | An expired entry disappears and nothing else changes. |
| RecordStore.Scan | controllers/userController.js:14 | It lists exactly the rows with ids in the range, each with its own values, in strictly ascending id order. |
| RecordStore.SelectAllListsEveryRow | controllers/userController.js:14 | `SELECT *` lists every row of the table and nothing else, in primary-key order. |
| RecordStore.RowsJson | controllers/userController.js:14-16 | The result array has one `{ id, name, email }` object per row, in order. |
| RecordStore.SelectById | controllers/userController.js:33-34 | The lookup returns one row exactly when the id the parameter denotes is in the table, and then returns that row. Otherwise it returns none. |
| RecordStore.FindCollision | controllers/userController.js:60 | It finds the lowest-id row whose unique value the incoming pair repeats, or states that no row in the range collides. |
| RecordStore.UpsertOne | controllers/userController.js:60 | Without a collision, the pair is inserted under the next id and counts 1. Otherwise the colliding row is overwritten. That counts 2, or 1 when the values were already the same. |
| RecordStore.UpsertAll | controllers/userController.js:60 | Rows are applied in order. Ids are only added. Rows not overwritten keep their values. The affected count lies between n and 2n, and the last pair ends up in the table. |
| RecordStore.UpsertAllPlacesEachPair | controllers/userController.js:60 | Pairs are applied in order. Each pair is in the table afterwards, unless a later pair of the same statement collides with it. |
| RecordStore.UpsertAllKeepsRow | controllers/userController.js:60 | A row whose values no pair of the statement collides with keeps its values. |
| RecordStore.UpsertAllWithoutIndexInserts | controllers/userController.js:60 | Without a unique index, every pair is a fresh insert. Nothing is overwritten, and the statement affects exactly one row per pair. |
| RecordStore.Collides | controllers/userController.js:60 | Two rows collide exactly when they hold the same non-NULL value in the column with the unique index. |
| RecordStore.CollidesSymmetric | controllers/userController.js:60 | Whether two rows collide on the unique column does not depend on which one is the incoming row. |
| RecordStore.UpsertOnePreservesUnique | controllers/userController.js:60 | Inserting or overwriting one pair keeps the unique index: no two distinct rows collide. |
| RecordStore.UpsertAllPreservesUnique | controllers/userController.js:60 | A multi-row upsert keeps the unique index. |
| RecordStore.UpdateById | controllers/userController.js:76-77 | A missing id matches 0 rows. The update fails as a duplicate entry exactly when another row holds the unique value. Otherwise only that row changes, and 1 row matches. |
| RecordStore.UpdateByIdPreservesUnique | controllers/userController.js:76 | An update that does not fail keeps the unique index. |
| RecordStore.SqlId | controllers/userController.js:33 | A parameter that does not start with a digit denotes 0, which no row has. |
| RecordStore.SqlIdOfNumeral | controllers/userController.js:33 | A numeral followed by anything that does not start with a digit denotes the numeral's number, so `7` and `7abc` both denote row 7. |
| RecordStore.DeleteById | controllers/userController.js:91-93 | Exactly the id's row is removed. The count is 1 when it existed and 0 when it did not. |
| Json.PropertyOfMembers | controllers/userController.js:46-52 | `v.key` is undefined exactly when `v` is not an object or has no member with the key. Otherwise it is the value of the last member with that key. |
| Json.Obj2Properties | seerver.js:48 | A two-member object literal has exactly its two properties, and the second wins when both have the same key. |
| Json.LastMember | controllers/userController.js:52 | A property is undefined exactly when no member has the key. Otherwise it is the value of the last member with that key, as `JSON.parse` keeps the last of duplicated keys. |
| Json.Truthy | controllers/userController.js:53 | `!v` holds exactly for `undefined`, `null`, `false`, `0` and the empty string. |
| Json.ToJsString | seerver.js:84 | `String(v)` is the string itself for a string, the decimal numeral for an integer (with a minus sign when negative), `true`/`false` for a boolean, `null` for null, and `[object Object]` for any object. An empty array gives the empty string. A one-element array gives its element's string, or the empty string for a null element. |
| Decimal.FromNat | controllers/userController.js:26 | An id is written as digits with no leading zero. |
| Decimal.NumericPrefixOfFromNat | controllers/userController.js:33 | An id written into a key reads back as the same id. |
| Decimal.FromNatInjective | controllers/userController.js:36 | Distinct ids give distinct keys. |
| Codec.Encode | controllers/userController.js:15 | Every value encodes to a non-empty text, so a cached encoding always passes the hit test. |
| Codec.DecodeEncode | controllers/userController.js:10-15 | Parsing a stored encoding gives back the value that was stored. |
| Codec.DecodeEncodePrefix | controllers/userController.js:10-15 | An encoding is self-delimiting. Decoding it followed by any text yields the value and leaves exactly that text. |
| Codec.EncodeInjective | controllers/userController.js:15 | Distinct values are stored as distinct texts. |
| Coherence.CanonicalUserKeyReadsBack | controllers/userController.js:26 | A canonical per-user key is never `users`, and it names the id it was built from. |
| Coherence.EmptyCacheIsCoherent | controllers/userController.js:7 | An empty cache agrees with any table. |
| Coherence.ExpirePreservesCoherence | controllers/userController.js:15 | Expiry never breaks agreement between cache and table. |
| Coherence.CoherentUsersHitIsFresh | controllers/userController.js:7-10 | When the cache agrees with the table, a hit on `users` answers the current full scan. |
| Coherence.CoherentUserHitIsFresh | controllers/userController.js:26-29 | When the cache agrees with the table, a hit on a user's key answers that row as the table holds it now. |
| Coherence.GetUsersPreservesCoherence | controllers/userController.js:13-16 | Filling `users` on a miss keeps cache and table in agreement. |
| Coherence.GetUserByIdPreservesCoherence | controllers/userController.js:32-37 | Filling a user's key on a miss keeps agreement, under the corrected keying. |
| Coherence.DropPreservesCoherence | controllers/userController.js:79-80 | Dropping `users` and the keys of every changed row keeps agreement with the changed table. |
| Coherence.CreateUserPreservesCoherence | controllers/userController.js:58-62 | The corrected create keeps agreement unless its own invalidation fails. |
| Coherence.UpdateUserPreservesCoherence | controllers/userController.js:76-80 | The corrected update keeps agreement unless one of its invalidations fails. |
| Coherence.DeleteUserPreservesCoherence | controllers/userController.js:91-96 | The corrected delete keeps agreement unless one of its invalidations fails. |
| Coherence.CorrectedReadIsFresh | controllers/userController.js:26-37 | When the cache agrees with the table, a read of a user answers the row the table holds now, hit or miss. It answers 404 when there is no such row. |
| Coherence.CreateThenReadIsFresh | controllers/userController.js:58-62 | After a corrected create, a read of any user answers the row as the create left it. |
| Coherence.UpdateThenReadIsFresh | controllers/userController.js:76-80 | After a corrected update, a read through any parameter naming the same row answers the updated row. |
| Coherence.DeleteThenReadNotFound | controllers/userController.js:91-96 | After a corrected delete, a read through any parameter naming the same row answers 404. |
| Coherence.CanonicalParamKeysAgree | controllers/userController.js:26 | For a parameter written as a canonical numeral, the controller's raw-parameter key is the canonical key. |
| Coherence.FromNatIsCanonical | controllers/userController.js:26 | Every id's numeral is a canonical parameter naming that id. |
| Coherence.AsWrittenGetUserByIdPreservesCoherence | controllers/userController.js:26-37 | As written, a read through a canonical parameter keeps the cache in agreement with the table. |
| Coherence.AsWrittenUpdateUserPreservesCoherence | controllers/userController.js:76-80 | As written, an update through a canonical parameter keeps agreement, unless one of its invalidations fails. |
| Coherence.AsWrittenDeleteUserPreservesCoherence | controllers/userController.js:91-96 | As written, a delete through a canonical parameter keeps agreement, unless one of its invalidations fails. |
| Coherence.AsWrittenCreateUserPreservesCoherence | controllers/userController.js:58-62 | As written, a create whose upsert overwrites no row keeps agreement, unless its invalidation fails. |
| Coherence.AsWrittenCreateWithoutIndexPreservesCoherence | controllers/userController.js:58-62 | As written, with no unique index every create keeps agreement, unless its invalidation fails. |
| UserScenarios.ReadCollectionTwice | controllers/userController.js:7-16 | After a miss, the next read is a hit that serves the same rows without the table. The two answers differ in shape: `{ success, data }` against the bare array. |
| UserScenarios.ReadUserTwice | controllers/userController.js:26-37 | After a miss, the next read of the same id is a hit that serves the same row alone. |
| UserScenarios.CreateBodyIsValid | controllers/userController.js:46-58 | A one-element `users` list with a non-empty name and email validates, and yields that pair. |
| UserScenarios.UpdatedUserOfBody | controllers/userController.js:74 | An update body's `name` and `email` become the row's new values. |
| UserScenarios.InsertReadUpdateRead | controllers/userController.js:26-81 | Inserting Ann into an empty table gives id 1. Reading her caches the row, and updating her drops it. The next read fetches the updated row. |
| UserScenarios.UpsertOverwriteServesStaleRow | controllers/userController.js:60-62 | As written, an upsert that overwrites cached row 1 leaves `user:1`. The next read serves the old row. |
| UserScenarios.UpsertOverwriteThenFreshRead | controllers/userController.js:60-62 | Corrected, the same sequence also drops `user:1`. The next read fetches the new row. |
| UserScenarios.AliasedParamServesStaleRow | controllers/userController.js:76-80 | As written, reading `/users/01` caches row 1 under `user:01`. Updating `/users/1` does not drop that entry, so reading `/users/01` again serves the old row. |
| UserScenarios.AliasedParamThenFreshRead | controllers/userController.js:76-80 | Corrected, both requests use `user:1`. The last read fetches the updated row. |
| UserScenarios.UpsertOverwriteLeavesStaleEntry | controllers/userController.js:60-62 | As written, take any table, any create request and a cached user row. After the create, the next read serves the row as it was before. That is the current row exactly when the upsert left the row unchanged. |
| UserScenarios.AliasedKeyLeavesStaleEntry | controllers/userController.js:76-80 | As written, take any two distinct parameters naming the same row, with the row cached under the first. After an update through the second, a read through the first serves the old row. That is the current row exactly when the update left it unchanged. |
| DataServer.Generated | seerver.js:48 | The made-up item has exactly the properties `id`, holding the id, and `value`, holding `Value for <id>`, which is truthy. |
| DataServer.GetDataById | seerver.js:26-54 | A read error answers 500 and changes nothing. A hit serves the parsed entry without running the route. A miss answers `{ id, value: "Value for <id>" }` and caches its encoding under the id for 60 s. A failed cache write answers nothing. |
| DataServer.CollectMembers | seerver.js:62-66 | It adds one member per listed key, in order, each with the key's parsed text. It fails exactly when some stored text does not parse. |
| DataServer.ListAll | seerver.js:57-73 | It never changes the cache. An empty cache gives "No data found in cache". A store or parse error answers 500. Otherwise it returns an object with a property for exactly the cache's keys, each holding that key's parsed text. |
| DataServer.CollectedProperties | seerver.js:62-68 | The object built from every key of the cache has a property for exactly those keys, each holding that key's parsed text. |
| DataServer.PostData | seerver.js:76-104 | A falsy `id` or `value` answers 400 and changes nothing. A failed deletion answers 500 and changes nothing. Otherwise it removes the key `String(id)`, leaves every other entry as it was, and answers `{ message: 'Data updated', newData: { id: String(id), value } }`. |
| DataProperties.GetDataTwice | seerver.js:30-53 | After a miss, the next read of the id is a hit that answers the same item and leaves the cache as it is. |
| DataProperties.GetDataServesGenerated | seerver.js:30-53 | Suppose every entry holds the item made up for its key. Then reads keep it that way, and every answered read, hit or miss, answers the made-up item. |
| DataProperties.PostDataPreservesOnlyGenerated | seerver.js:84-88 | A post stores nothing, so the cache still holds made-up items only. |
| DataProperties.ExpirePreservesOnlyGenerated | seerver.js:51 | Expiry only removes entries, so the cache still holds made-up items only. |
| DataProperties.ListAllOfGenerated | seerver.js:59-68 | Listing a non-empty cache of made-up items maps exactly its keys, each to its item. |
| DataProperties.PostThenGetServesGenerated | seerver.js:84-99 | After a post, the next read of `String(id)` misses and answers the made-up item, never the posted value. |
| DataProperties.PostNumericIdDropsReadKey | seerver.js:45-51 | A post whose `id` is a positive integer `n` below 2^53 drops the key `String(n)`. That is the key under which `GET /data/<n>` cached its item. No other entry changes. |
| DataProperties.GetThenListAll | seerver.js:45-68 | After one read into an empty cache, the listing maps that id to its item. |

## Left out

- Connections and startup are out: the Redis connect step, `app.listen`, the Express bootstrap in `server.js` and the client configuration in `config/redis.js`. They are I/O with no logic. `config/db.js` is not part of this model.
- The model assumes the controller's cache client offers `get`, `setEx` and `del`. As shipped, `config/redis.js` exports nothing, and the ioredis client it configures names the command `setex`. So every cache call of the controller would throw. Each handler would answer 500 when it reaches its first cache call, and a write already committed to the table would stand. A `createUser` that fails validation still answers 400, and an update or delete of a missing row still answers 404, because no cache call comes before those answers.
- DataServer.GetDataById answers nothing (`NoReply`) when the cache write fails, because the rejection escapes the route. That is Express 4's behaviour. Express 5 passes the rejection to its error handler, which answers 500. On Node 15 or later the unhandled rejection also ends the process. Neither is modelled.
- Logging (`console.log`, `console.warn`, `console.error`) is left out because it has no effect on the stores or the response.
- Wall-clock expiry is out: each entry records its TTL, and expiry is the explicit `CacheStore.Expire` step.
- Concurrent requests are out: each handler runs atomically. The window between a table write and its invalidation, where another read can cache a stale row, is therefore not modelled.
- `JSON.stringify` and `JSON.parse` are replaced by `Codec`, an invertible encoding with the same round trip. Their exact text, and parsing of text not produced by an encoder, are not modelled. Object members keep insertion order, while JavaScript lists integer-like keys first.
- Numbers are integers. Floating-point values in request bodies are not modelled.
- Json.ToJsString writes an integer as all its digits. In JavaScript a number is a double. `JSON.parse` rounds an integer beyond 2^53 to the nearest double (`9007199254740993` becomes `9007199254740992`), and `String` writes 10^21 and above in exponent form (`1e+21`). So for such ids, `POST /data` drops a different key from the one the model computes. DataProperties.PostNumericIdDropsReadKey is stated only for ids below 2^53 for this reason.
- The table schema is not shown, so the unique index that `ON DUPLICATE KEY UPDATE` reacts to is the `UniqueColumn` parameter: none, name or email.
- Column values are the JSON values the request supplied. MySQL's coercion into the text columns is not modelled: a number or a boolean is stored and read back as text (`name: 5` reads back as `"5"`, the model keeps `Num(5)`), and objects, arrays and over-long strings are not handled either.
- RecordStore.Collides compares unique values exactly. MySQL's default collation is case-insensitive, so `A@x.com` collides with `a@x.com` there but not in the model.
- UserController.UpdatedUser binds a missing `name` or `email` as NULL, and RecordStore.UpdateById stores it. This assumes the columns are nullable. With a `NOT NULL` column in MySQL's strict mode, such a `PUT` fails with error 1048 and the handler answers 500.
- RecordStore.UpdateById counts the rows the `WHERE` matches, not the rows it changed, and RecordStore.UpsertOne counts an unchanged duplicate as 1. Both follow the CLIENT_FOUND_ROWS connection flag, which mysql2 sets by default. Without it, an update that writes the same values reports 0 rows, and `updateUser` answers 404. `config/db.js` is not part of this model, so the flag is an assumption.
- RecordStore.UpsertOne keeps the counter when a pair overwrites a row. InnoDB may still use up an AUTO_INCREMENT value for it, so later ids can skip numbers. The ids these contracts assign are the model's counter, which can lag MySQL's after an overwrite. The Coherence and scenario lemmas use ids only for identity.
- RecordStore.SelectAllListsEveryRow fixes the order of the listed rows as ascending id, as RecordStore.Scan does. `SELECT *` without `ORDER BY` does not guarantee any order; a full scan of the clustered index gives that order in practice.
- Only `affectedRows` of the statement result is modelled. The rest of the driver's result header (`insertId`, `info`, `changedRows`, …), which `createUser` returns as `data`, is left out.
- Store errors are not kept as driver messages: they are the fault's message. The texts of runtime errors that the handlers forward (a parse error, destructuring `null`, a duplicate entry) are fixed stand-ins.
- `DataServer.ListAll` takes the key list that `keys('*')` returns as a parameter, in the store's order. Keys disappearing between the listing and the reads are not modelled.
- RecordStore.SqlId reads only the leading decimal digits of a path parameter. MySQL's fuller string-to-number conversion is not modelled: leading spaces, a sign, a fraction or an exponent (so `1.5` denotes 1 here, while MySQL compares it as 1.5).
- UserController.UpdateUser and UserController.DeleteUser treat a parameter that is not a clean number (`1abc`, `abc`) by its numeric prefix, so they match row 1 or answer 404. In MySQL's default strict mode, `UPDATE` and `DELETE` with such a value fail with error 1292 (truncated incorrect value), and the handler answers 500 instead. A `SELECT` only warns, as `SqlId` models.
- DataServer.ListAll does not model how JavaScript treats the key `__proto__` when it is assigned on a plain object.

## Findings

| source | as written | input that shows it | evidently intended | confidence | as-written member | corrected member |
|---|---|---|---|---|---|---|
| controllers/userController.js:60-62 | The upsert may overwrite an existing row, but only `users` is dropped afterwards. | Row 1 is `{ Ann, a@x.com }` with a unique email index and is cached as `user:1`. Creating `[{ Bob, a@x.com }]` overwrites row 1, and `GET /users/1` then serves Ann. | Drop `user:<id>` for every row the upsert overwrote, as for update and delete. | medium (depends on the schema having a unique index); not executed | UserScenarios.UpsertOverwriteLeavesStaleEntry | Coherence.CreateThenReadIsFresh |
| controllers/userController.js:26-36 | The per-user key is built from the raw path parameter, while MySQL compares the id column with the parameter's numeric value. | `GET /users/01` caches row 1 under `user:01`. `PUT /users/1` drops only `user:1`, so `GET /users/01` then serves the old row. | Key the entry by the row's id, so every parameter naming the row shares one entry. | medium; not executed | UserScenarios.AliasedKeyLeavesStaleEntry | Coherence.UpdateThenReadIsFresh |

The inputs in the table are worked through as `UserScenarios.UpsertOverwriteServesStaleRow` and `UserScenarios.AliasedParamServesStaleRow`. The same sequences under the corrected policy are `UserScenarios.UpsertOverwriteThenFreshRead` and `UserScenarios.AliasedParamThenFreshRead`.

Under the corrected keying and invalidation, `Coherence` proves that every handler keeps the cache in agreement with the table, unless an invalidation call itself fails. `Coherence.CoherentUserHitIsFresh` and `Coherence.CoherentUsersHitIsFresh` then show that a hit always serves current data.

=== FILE: cache_store.dfy ===
/** The key/value cache as the handlers see it: a finite map from key to the
    stored text, each entry remembering the expiry (in seconds) it was set with.
    Expiry itself is an explicit step, `Expire`, rather than a clock. */
module CacheStore {
  import opened Options

  datatype Entry = Entry(text: string, ttl: nat)

  type Cache = map<string, Entry>

  /** `const cached = await get(key); if (cached) …`: the text when the test
      passes. A present but empty text is falsy and is treated like a miss. */
  function Hit(c: Cache, key: string): (r: Option<string>)
    ensures r.Some? <==> key in c && c[key].text != ""
    ensures r.Some? ==> r.value == c[key].text
  {
    if key in c && c[key].text != "" then Some(c[key].text) else None
  }

  /** Every key outside `keys` is present in both caches or in neither, and
      maps to the same entry in both. */
  ghost predicate SameOutside(c: Cache, c': Cache, keys: set<string>) {
    forall k :: k !in keys ==> (k in c <==> k in c') && (k in c ==> c[k] == c'[k])
  }

  /** `setEx(key, ttl, text)`. */
  function SetEx(c: Cache, key: string, ttl: nat, text: string): (c': Cache)
    ensures key in c' && c'[key] == Entry(text, ttl)
    ensures c'.Keys == c.Keys + {key}
    ensures SameOutside(c, c', {key})
  {
    c[key := Entry(text, ttl)]
  }

  /** `del(keys)`: removes every listed key, present or not. */
  function Del(c: Cache, keys: set<string>): (c': Cache)
    ensures c'.Keys == c.Keys - keys
    ensures SameOutside(c, c', keys)
  {
    c - keys
  }

  /** The entry under `key` outlives its time-to-live and disappears. */
  function Expire(c: Cache, key: string): (c': Cache)
    ensures key !in c'
    ensures SameOutside(c, c', {key})
  {
    Del(c, {key})
  }
}

=== FILE: codec.dfy ===
/** The text the cache stores for a JSON value: `Encode` plays the part of
    `JSON.stringify` and `Decode` that of `JSON.parse`.

    The serialization is self-delimiting rather than JSON's own syntax: every
    value starts with a tag character, numbers end with ';', strings carry their
    length, arrays and objects are bracketed. Only the round trip matters to the
    cache-aside protocol, and it is proved here (`DecodeEncode`). */
module Codec {
  import opened Options
  import opened Json
  import Decimal

  /** The characters an encoding can start with. */
  const Tags := "ntfis[{"

  function Encode(j: Json): (r: string)
    ensures |r| > 0 && r[0] in Tags
    decreases j, 1
  {
    match j
    case Null => "n"
    case Bool(b) => if b then "t" else "f"
    case Num(n) => "i" + IntText(n) + ";"
    case Str(s) => EncodeString(s)
    case Arr(items) => "[" + EncodeItems(items) + "]"
    case Obj(ms) => "{" + EncodeMembers(ms) + "}"
  }

  function EncodeString(s: string): (r: string)
    ensures |r| > 0 && r[0] == 's'
  {
    "s" + Decimal.FromNat(|s|) + ":" + s
  }

  function EncodeItems(items: seq<Json>): string
    decreases items, 0
  {
    if |items| == 0 then "" else Encode(items[0]) + EncodeItems(items[1..])
  }

  function EncodeMembers(ms: seq<Member>): string
    decreases ms, 0
  {
    if |ms| == 0 then ""
    else EncodeString(ms[0].key) + Encode(ms[0].val) + EncodeMembers(ms[1..])
  }

  /** Reads one encoded value off the front of `s`, returning it with the rest. */
  function DecodePrefix(s: string): (r: Option<(Json, string)>)
    ensures r.Some? ==> |r.value.1| < |s|
    decreases |s|, 2
  {
    if |s| == 0 then None
    else if s[0] == 'n' then Some((Null, s[1..]))
    else if s[0] == 't' then Some((Bool(true), s[1..]))
    else if s[0] == 'f' then Some((Bool(false), s[1..]))
    else if s[0] == 'i' then DecodeNum(s[1..])
    else if s[0] == 's' then
      match DecodeString(s[1..])
      case None => None
      case Some((str, rest)) => Some((Str(str), rest))
    else if s[0] == '[' then
      match DecodeItems(s[1..])
      case None => None
      case Some((items, rest)) => Some((Arr(items), rest))
    else if s[0] == '{' then
      match DecodeMembers(s[1..])
      case None => None
      case Some((ms, rest)) => Some((Obj(ms), rest))
    else None
  }

  /** An optional '-', at least one digit, then ';'. */
  function DecodeNum(t: string): (r: Option<(Json, string)>)
    ensures r.Some? ==> |r.value.1| < |t|
  {
    var neg := |t| > 0 && t[0] == '-';
    var u := if neg then t[1..] else t;
    var k := Decimal.DigitRun(u);
    if k == 0 || k >= |u| || u[k] != ';' then None
    else
      var v: int := Decimal.Value(u[..k]);
      Some((Num(if neg then -v else v), u[k + 1..]))
  }

  /** A length in digits, ':', then that many characters. */
  function DecodeString(t: string): (r: Option<(string, string)>)
    ensures r.Some? ==> |r.value.1| < |t|
  {
    var k := Decimal.DigitRun(t);
    if k == 0 || k >= |t| || t[k] != ':' then None
    else
      var len := Decimal.Value(t[..k]);
      if k + 1 + len > |t| then None
      else Some((t[k + 1..k + 1 + len], t[k + 1 + len..]))
  }

  /** Encoded values up to and including the closing ']'. */
  function DecodeItems(s: string): (r: Option<(seq<Json>, string)>)
    ensures r.Some? ==> |r.value.1| < |s|
    decreases |s|, 3
  {
    if |s| == 0 then None
    else if s[0] == ']' then Some(([], s[1..]))
    else
      match DecodePrefix(s)
      case None => None
      case Some((j, rest)) =>
        match DecodeItems(rest)
        case None => None
        case Some((js, rest')) => Some(([j] + js, rest'))
  }

  /** Encoded key/value pairs up to and including the closing '}'. */
  function DecodeMembers(s: string): (r: Option<(seq<Member>, string)>)
    ensures r.Some? ==> |r.value.1| < |s|
    decreases |s|, 3
  {
    if |s| == 0 then None
    else if s[0] == '}' then Some(([], s[1..]))
    else if s[0] != 's' then None
    else
      match DecodeString(s[1..])
      case None => None
      case Some((key, rest)) =>
        match DecodePrefix(rest)
        case None => None
        case Some((v, rest')) =>
          match DecodeMembers(rest')
          case None => None
          case Some((ms, rest'')) => Some(([Member(key, v)] + ms, rest''))
  }

  /** `JSON.parse`: the whole text must be exactly one encoded value. */
  function Decode(s: string): Option<Json> {
    match DecodePrefix(s)
    case None => None
    case Some((j, rest)) => if rest == "" then Some(j) else None
  }

  lemma DecodeNumAt(t: string, k: nat)
    requires 0 < k < |t| && t[0] != '-' && Decimal.DigitRun(t) == k && t[k] == ';'
    ensures DecodeNum(t) == Some((Num(Decimal.Value(t[..k])), t[k + 1..]))
  {
  }

  lemma DecodeNegNumAt(t: string, k: nat)
    requires 1 < |t| && t[0] == '-'
    requires 0 < k < |t| - 1 && Decimal.DigitRun(t[1..]) == k && t[1..][k] == ';'
    ensures DecodeNum(t) == Some((Num(-(Decimal.Value(t[1..][..k]) as int)), t[1..][k + 1..]))
  {
  }

  lemma NumeralThenSemicolon(u: string, ds: string, rest: string)
    requires |ds| > 0 && Decimal.AllDigits(ds) && u == ds + (";" + rest)
    ensures 0 < |ds| < |u| && Decimal.DigitRun(u) == |ds| && u[|ds|] == ';'
    ensures u[..|ds|] == ds && u[|ds| + 1..] == rest
  {
    Decimal.DigitRunOfNumeral(ds, ";" + rest);
  }

  /** An integer field reads back whole whatever follows it. */
  lemma DecodeEncodeNum(t: string, n: int, rest: string)
    requires t == Encode(Num(n)) + rest
    ensures DecodeNum(t[1..]) == Some((Num(n), rest))
  {
    if n < 0 {
      DecodeEncodeNegNum(t[1..], -n, rest);
    } else {
      DecodeEncodeNatNum(t[1..], n, rest);
    }
  }

  lemma DecodeEncodeNatNum(u: string, m: nat, rest: string)
    requires u == Decimal.FromNat(m) + ";" + rest
    ensures DecodeNum(u) == Some((Num(m), rest))
  {
    var ds := Decimal.FromNat(m);
    Decimal.ValueOfFromNat(m);
    assert u == ds + (";" + rest);
    NumeralThenSemicolon(u, ds, rest);
    assert Decimal.IsDigit(u[0]);
    DecodeNumAt(u, |ds|);
  }

  lemma DecodeEncodeNegNum(u: string, m: nat, rest: string)
    requires m > 0 && u == "-" + Decimal.FromNat(m) + ";" + rest
    ensures DecodeNum(u) == Some((Num(-(m as int)), rest))
  {
    var ds := Decimal.FromNat(m);
    Decimal.ValueOfFromNat(m);
    var v := u[1..];
    assert v == ds + (";" + rest);
    NumeralThenSemicolon(v, ds, rest);
    DecodeNegNumAt(u, |ds|);
  }

  lemma DecodeStringAt(t: string, k: nat, len: nat)
    requires 0 < k < |t| && Decimal.DigitRun(t) == k && t[k] == ':'
    requires Decimal.Value(t[..k]) == len && k + 1 + len <= |t|
    ensures DecodeString(t) == Some((t[k + 1..k + 1 + len], t[k + 1 + len..]))
  {
  }

  lemma StringFieldSlices(t: string, ds: string, str: string, rest: string)
    requires t == ds + (":" + str + rest)
    ensures |ds| < |t| && t[..|ds|] == ds && t[|ds|] == ':'
    ensures t[|ds| + 1..|ds| + 1 + |str|] == str && t[|ds| + 1 + |str|..] == rest
  {
    assert t[|ds| + 1..] == str + rest;
  }

  /** A string field reads back whole whatever follows it. */
  lemma DecodeStringField(t: string, ds: string, str: string, rest: string)
    requires |ds| > 0 && Decimal.AllDigits(ds) && Decimal.Value(ds) == |str|
    requires t == ds + (":" + str + rest)
    ensures DecodeString(t) == Some((str, rest))
  {
    var tail := ":" + str + rest;
    assert tail[0] == ':';
    Decimal.DigitRunOfNumeral(ds, tail);
    assert Decimal.DigitRun(t) == |ds|;
    StringFieldSlices(t, ds, str, rest);
    DecodeStringAt(t, |ds|, |str|);
  }

  lemma DecodeEncodeString(t: string, str: string, rest: string)
    requires t == EncodeString(str) + rest
    ensures DecodeString(t[1..]) == Some((str, rest))
  {
    var ds := Decimal.FromNat(|str|);
    Decimal.ValueOfFromNat(|str|);
    assert t[1..] == ds + (":" + str + rest);
    DecodeStringField(t[1..], ds, str, rest);
  }

  /** Decoding the encoding of a value, followed by anything, reads back exactly
      that value and leaves the rest untouched. */
  lemma {:induction false} DecodeEncodePrefix(j: Json, rest: string)
    ensures DecodePrefix(Encode(j) + rest) == Some((j, rest))
    decreases j, 2
  {
    match j
    case Arr(items) => DecodeEncodeArr(items, rest);
    case Obj(ms) => DecodeEncodeObj(ms, rest);
    case _ => DecodeEncodeScalar(j, rest);
  }

  lemma DecodeEncodeScalar(j: Json, rest: string)
    requires !j.Arr? && !j.Obj?
    ensures DecodePrefix(Encode(j) + rest) == Some((j, rest))
  {
    var s := Encode(j) + rest;
    match j
    case Null =>
      assert s[0] == 'n' && s[1..] == rest;
    case Bool(b) =>
      assert s[0] == (if b then 't' else 'f') && s[1..] == rest;
    case Num(n) =>
      DecodeEncodeNum(s, n, rest);
    case Str(str) =>
      DecodeEncodeString(s, str, rest);
  }

  lemma {:induction false} DecodeEncodeArr(items: seq<Json>, rest: string)
    ensures DecodePrefix(Encode(Arr(items)) + rest) == Some((Arr(items), rest))
    decreases items, 1
  {
    var s := Encode(Arr(items)) + rest;
    assert s[0] == '[' && s[1..] == EncodeItems(items) + "]" + rest;
    DecodeEncodeItems(items, rest);
  }

  lemma {:induction false} DecodeEncodeObj(ms: seq<Member>, rest: string)
    ensures DecodePrefix(Encode(Obj(ms)) + rest) == Some((Obj(ms), rest))
    decreases ms, 1
  {
    var s := Encode(Obj(ms)) + rest;
    assert s[0] == '{' && s[1..] == EncodeMembers(ms) + "}" + rest;
    DecodeEncodeMembers(ms, rest);
  }

  lemma {:induction false} DecodeEncodeItems(items: seq<Json>, rest: string)
    ensures DecodeItems(EncodeItems(items) + "]" + rest) == Some((items, rest))
    decreases items, 0
  {
    var s := EncodeItems(items) + "]" + rest;
    if |items| == 0 {
      assert s == "]" + rest;
    } else {
      var tail := EncodeItems(items[1..]) + "]" + rest;
      assert s == Encode(items[0]) + tail;
      DecodeEncodePrefix(items[0], tail);
      DecodeEncodeItems(items[1..], rest);
      assert [items[0]] + items[1..] == items;
    }
  }

  lemma {:induction false} DecodeEncodeMembers(ms: seq<Member>, rest: string)
    ensures DecodeMembers(EncodeMembers(ms) + "}" + rest) == Some((ms, rest))
    decreases ms, 0
  {
    var s := EncodeMembers(ms) + "}" + rest;
    if |ms| == 0 {
      assert s == "}" + rest;
    } else {
      var key := ms[0].key;
      var tail := EncodeMembers(ms[1..]) + "}" + rest;
      var afterKey := Encode(ms[0].val) + tail;
      assert s == EncodeString(key) + afterKey;
      DecodeEncodeString(s, key, afterKey);
      DecodeEncodePrefix(ms[0].val, tail);
      DecodeEncodeMembers(ms[1..], rest);
      assert [Member(key, ms[0].val)] + ms[1..] == ms;
    }
  }

  /** `JSON.parse(JSON.stringify(v))` is `v`. */
  lemma DecodeEncode(j: Json)
    ensures Decode(Encode(j)) == Some(j)
  {
    DecodeEncodePrefix(j, "");
    assert Encode(j) + "" == Encode(j);
  }

  /** Distinct values have distinct encodings, so a cached text identifies the
      value it was written from. */
  lemma EncodeInjective(a: Json, b: Json)
    ensures Encode(a) == Encode(b) <==> a == b
  {
    if Encode(a) == Encode(b) {
      DecodeEncode(a);
      DecodeEncode(b);
    }
  }
}

=== FILE: coherence.dfy ===
/** Cache coherence of the user controller when each request runs alone.

    `Coherent(c, db)` says every cache entry is the encoding of what the table
    holds now: `users` the full scan, `user:<id>` the row `id` under its
    canonical key. With the corrected invalidation every handler keeps it, so a
    hit serves the same data a miss would fetch. As written, two request
    sequences break it and serve a row the table no longer holds. */
module Coherence {
  import opened Json
  import opened Http
  import opened Faults
  import opened CacheStore
  import opened RecordStore
  import opened UserController
  import Codec
  import Decimal

  predicate IsUserKey(k: string) {
    |k| >= 5 && k[..5] == "user:"
  }

  /** What the entry under `k` must hold for the cache to agree with `db`. */
  ghost predicate EntryCoherent(k: string, text: string, db: Db) {
    if k == UsersKey then text == Codec.Encode(UsersJson(db))
    else
      && IsUserKey(k)
      && var id := SqlId(k[5..]);
      && k == CanonicalUserKey(id)
      && id in db.rows
      && text == Codec.Encode(RowJson(Row(id, db.rows[id])))
  }

  ghost predicate Coherent(c: Cache, db: Db) {
    forall k :: k in c ==> EntryCoherent(k, c[k].text, db)
  }

  lemma UsersKeyIsNotAUserKey()
    ensures !IsUserKey(UsersKey)
  {
    assert UsersKey[4] == 's';
  }

  /** The canonical key of `id` reads back as `id`. */
  lemma CanonicalUserKeyReadsBack(id: nat)
    ensures IsUserKey(CanonicalUserKey(id))
    ensures CanonicalUserKey(id) != UsersKey
    ensures SqlId(CanonicalUserKey(id)[5..]) == id
  {
    var k := CanonicalUserKey(id);
    assert k[..5] == "user:";
    assert k[5..] == Decimal.FromNat(id);
    Decimal.NumericPrefixOfFromNat(id);
    UsersKeyIsNotAUserKey();
  }

  /** An empty cache agrees with any table. */
  lemma EmptyCacheIsCoherent(db: Db)
    ensures Coherent(map[], db)
  {
  }

  /** Expiry only removes entries. */
  lemma {:induction false} ExpirePreservesCoherence(c: Cache, db: Db, key: string)
    requires Coherent(c, db)
    ensures Coherent(Expire(c, key), db)
  {
    var c' := Expire(c, key);
    forall k | k in c'
      ensures EntryCoherent(k, c'[k].text, db)
    {
      assert k in c && c'[k] == c[k];
    }
  }

  /** Under a coherent cache, a hit on `users` answers with exactly the rows the
      scan returns now, the `data` a miss would have answered with. */
  lemma CoherentUsersHitIsFresh(c: Cache, db: Db, f: Fault)
    requires Coherent(c, db)
    requires !Fails(f, 0) && UsersKey in c
    ensures GetUsers(c, db, f).response == Reply(OK, UsersJson(db))
    ensures GetUsers(c, db, f).cache == c
  {
    Codec.DecodeEncode(UsersJson(db));
  }

  /** Under a coherent cache, a hit on a user's entry answers with the row the
      table holds now. */
  lemma CoherentUserHitIsFresh(c: Cache, db: Db, param: string, f: Fault)
    requires Coherent(c, db)
    requires !Fails(f, 0) && UserKey(Corrected, param) in c
    ensures SqlId(param) in db.rows
    ensures GetUserById(Corrected, c, db, param, f).response ==
      Reply(OK, RowJson(Row(SqlId(param), db.rows[SqlId(param)])))
  {
    var id := SqlId(param);
    CanonicalUserKeyReadsBack(id);
    Codec.DecodeEncode(RowJson(Row(id, db.rows[id])));
  }

  lemma GetUsersPreservesCoherence(c: Cache, db: Db, f: Fault)
    requires Coherent(c, db)
    ensures Coherent(GetUsers(c, db, f).cache, GetUsers(c, db, f).db)
  {
  }

  lemma GetUserByIdPreservesCoherence(c: Cache, db: Db, param: string, f: Fault)
    requires Coherent(c, db)
    ensures Coherent(GetUserById(Corrected, c, db, param, f).cache, db)
  {
    CanonicalUserKeyReadsBack(SqlId(param));
  }

  /** Dropping keys keeps coherence with a table that changed only at rows
      whose canonical keys were dropped. */
  lemma {:induction false} DropPreservesCoherence(c: Cache, c': Cache, db: Db, db': Db, keys: set<string>)
    requires Coherent(c, db)
    requires UsersKey in keys
    requires forall k :: k in c' ==> k in c && k !in keys && c'[k] == c[k]
    requires forall id :: id in db.rows && CanonicalUserKey(id) !in keys ==>
      id in db'.rows && db'.rows[id] == db.rows[id]
    ensures Coherent(c', db')
  {
    forall k | k in c'
      ensures EntryCoherent(k, c'[k].text, db')
    {
      assert EntryCoherent(k, c[k].text, db);
    }
  }

  /** The corrected `createUser` keeps the cache coherent unless its
      invalidation itself fails after the upsert committed. */
  lemma CreateUserPreservesCoherence(c: Cache, db: Db, col: UniqueColumn, body: Json, f: Fault)
    requires Valid(db) && Coherent(c, db)
    requires !Fails(f, 1)
    ensures Coherent(CreateUser(Corrected, c, db, col, body, f).cache, CreateUser(Corrected, c, db, col, body, f).db)
  {
    if ValidCreateRequest(body) && !Fails(f, 0) {
      var r := UpsertAll(db, col, RequestedUsers(body));
      var keys := CreateInvalidates(Corrected, r);
      DropPreservesCoherence(c, Del(c, keys), db, r.db, keys);
    }
  }

  /** The corrected `updateUser` keeps the cache coherent unless one of its
      invalidations fails after the update committed. */
  lemma UpdateUserPreservesCoherence(c: Cache, db: Db, col: UniqueColumn, param: string, body: Json, f: Fault)
    requires Valid(db) && Coherent(c, db)
    requires !Fails(f, 1) && !Fails(f, 2)
    ensures Coherent(UpdateUser(Corrected, c, db, col, param, body, f).cache,
                     UpdateUser(Corrected, c, db, col, param, body, f).db)
  {
    var o := UpdateUser(Corrected, c, db, col, param, body, f);
    var id := SqlId(param);
    if Fails(f, 0) || id !in db.rows || UpdateById(db, col, id, UpdatedUser(body)).DuplicateEntry? {
      assert o.cache == c && o.db == db;
    } else {
      assert HasStatus(o.response, OK);
      DropPreservesCoherence(c, o.cache, db, o.db, {UsersKey, CanonicalUserKey(id)});
    }
  }

  /** The corrected `deleteUser` keeps the cache coherent unless one of its
      invalidations fails after the deletion committed. */
  lemma DeleteUserPreservesCoherence(c: Cache, db: Db, param: string, f: Fault)
    requires Valid(db) && Coherent(c, db)
    requires !Fails(f, 1) && !Fails(f, 2)
    ensures Coherent(DeleteUser(Corrected, c, db, param, f).cache, DeleteUser(Corrected, c, db, param, f).db)
  {
    var o := DeleteUser(Corrected, c, db, param, f);
    var id := SqlId(param);
    if Fails(f, 0) || id !in db.rows {
      assert o.cache == c && o.db == db;
    } else {
      assert HasStatus(o.response, OK);
      DropPreservesCoherence(c, o.cache, db, o.db, {UsersKey, CanonicalUserKey(id)});
    }
  }

  /** A read answering `row`: bare on a hit, as `{ success, data }` on a miss. */
  predicate ServesRow(r: Response, row: Json) {
    r == Reply(OK, row) || r == Reply(OK, SuccessData(row))
  }

  /** Under a coherent cache, a read of a user answers the row the table holds
      now, whether it hits or misses, and 404 when there is no such row. */
  lemma CorrectedReadIsFresh(c: Cache, db: Db, param: string)
    requires Coherent(c, db)
    ensures var id := SqlId(param);
            var r := GetUserById(Corrected, c, db, param, NoFault).response;
            if id in db.rows then ServesRow(r, RowJson(Row(id, db.rows[id])))
            else r == Reply(NotFound, ErrorBody("User not found"))
  {
    var id := SqlId(param);
    CanonicalUserKeyReadsBack(id);
    if UserKey(Corrected, param) in c {
      CoherentUserHitIsFresh(c, db, param, NoFault);
    }
  }

  /** A corrected create followed by a read of any user: the read answers the
      row as the create left it. */
  lemma CreateThenReadIsFresh(c: Cache, db: Db, col: UniqueColumn, body: Json, param: string)
    requires Valid(db) && Coherent(c, db)
    ensures var o := CreateUser(Corrected, c, db, col, body, NoFault);
            var id := SqlId(param);
            id in o.db.rows ==>
              ServesRow(GetUserById(Corrected, o.cache, o.db, param, NoFault).response, RowJson(Row(id, o.db.rows[id])))
  {
    CreateUserPreservesCoherence(c, db, col, body, NoFault);
    var o := CreateUser(Corrected, c, db, col, body, NoFault);
    CorrectedReadIsFresh(o.cache, o.db, param);
  }

  /** A corrected update followed by a read through any parameter naming the
      same row: the read answers the updated row. */
  lemma UpdateThenReadIsFresh(c: Cache, db: Db, col: UniqueColumn, writeParam: string, body: Json, readParam: string)
    requires Valid(db) && Coherent(c, db)
    requires SqlId(readParam) == SqlId(writeParam)
    ensures var o := UpdateUser(Corrected, c, db, col, writeParam, body, NoFault);
            var id := SqlId(readParam);
            HasStatus(o.response, OK) ==>
              && id in o.db.rows && o.db.rows[id] == UpdatedUser(body)
              && ServesRow(GetUserById(Corrected, o.cache, o.db, readParam, NoFault).response, RowJson(Row(id, UpdatedUser(body))))
  {
    UpdateUserPreservesCoherence(c, db, col, writeParam, body, NoFault);
    var o := UpdateUser(Corrected, c, db, col, writeParam, body, NoFault);
    CorrectedReadIsFresh(o.cache, o.db, readParam);
  }

  /** A corrected delete followed by a read through any parameter naming the
      same row: the read answers 404. */
  lemma DeleteThenReadNotFound(c: Cache, db: Db, writeParam: string, readParam: string)
    requires Valid(db) && Coherent(c, db)
    requires SqlId(readParam) == SqlId(writeParam)
    ensures var o := DeleteUser(Corrected, c, db, writeParam, NoFault);
            HasStatus(o.response, OK) ==>
              GetUserById(Corrected, o.cache, o.db, readParam, NoFault).response == Reply(NotFound, ErrorBody("User not found"))
  {
    DeleteUserPreservesCoherence(c, db, writeParam, NoFault);
    var o := DeleteUser(Corrected, c, db, writeParam, NoFault);
    CorrectedReadIsFresh(o.cache, o.db, readParam);
  }

  /** A parameter written as a canonical numeral: "1", not "01" or "1abc". */
  predicate CanonicalParam(param: string) {
    param == Decimal.FromNat(SqlId(param))
  }

  /** For a canonical parameter the controller's raw-parameter key is the
      canonical key, so the two policies key the same entry. */
  lemma CanonicalParamKeysAgree(param: string)
    requires CanonicalParam(param)
    ensures UserKey(AsWritten, param) == UserKey(Corrected, param)
  {
  }

  /** Two parameters share a per-user entry as written exactly when they are
      the same text, and corrected exactly when they name the same row. */
  lemma UserKeysAgree(p: Policy, a: string, b: string)
    ensures p == AsWritten ==> (UserKey(p, a) == UserKey(p, b) <==> a == b)
    ensures p == Corrected ==> (UserKey(p, a) == UserKey(p, b) <==> SqlId(a) == SqlId(b))
  {
    if UserKey(p, a) == UserKey(p, b) {
      assert UserKey(p, a)[5..] == UserKey(p, b)[5..];
    }
  }

  lemma FromNatIsCanonical(n: nat)
    ensures CanonicalParam(Decimal.FromNat(n)) && SqlId(Decimal.FromNat(n)) == n
  {
    Decimal.NumericPrefixOfFromNat(n);
  }

  /** As written, a read through a canonical parameter keeps the cache
      coherent. */
  lemma AsWrittenGetUserByIdPreservesCoherence(c: Cache, db: Db, param: string, f: Fault)
    requires Coherent(c, db) && CanonicalParam(param)
    ensures Coherent(GetUserById(AsWritten, c, db, param, f).cache, db)
  {
    CanonicalParamKeysAgree(param);
    assert GetUserById(AsWritten, c, db, param, f) == GetUserById(Corrected, c, db, param, f);
    GetUserByIdPreservesCoherence(c, db, param, f);
  }

  /** As written, an update through a canonical parameter keeps the cache
      coherent unless one of its invalidations fails. */
  lemma AsWrittenUpdateUserPreservesCoherence(c: Cache, db: Db, col: UniqueColumn, param: string, body: Json, f: Fault)
    requires Valid(db) && Coherent(c, db) && CanonicalParam(param)
    requires !Fails(f, 1) && !Fails(f, 2)
    ensures Coherent(UpdateUser(AsWritten, c, db, col, param, body, f).cache,
                     UpdateUser(AsWritten, c, db, col, param, body, f).db)
  {
    CanonicalParamKeysAgree(param);
    assert UpdateUser(AsWritten, c, db, col, param, body, f) == UpdateUser(Corrected, c, db, col, param, body, f);
    UpdateUserPreservesCoherence(c, db, col, param, body, f);
  }

  /** As written, a delete through a canonical parameter keeps the cache
      coherent unless one of its invalidations fails. */
  lemma AsWrittenDeleteUserPreservesCoherence(c: Cache, db: Db, param: string, f: Fault)
    requires Valid(db) && Coherent(c, db) && CanonicalParam(param)
    requires !Fails(f, 1) && !Fails(f, 2)
    ensures Coherent(DeleteUser(AsWritten, c, db, param, f).cache, DeleteUser(AsWritten, c, db, param, f).db)
  {
    CanonicalParamKeysAgree(param);
    assert DeleteUser(AsWritten, c, db, param, f) == DeleteUser(Corrected, c, db, param, f);
    DeleteUserPreservesCoherence(c, db, param, f);
  }

  /** As written, a create whose upsert overwrites no row keeps the cache
      coherent unless its invalidation fails. */
  lemma AsWrittenCreateUserPreservesCoherence(c: Cache, db: Db, col: UniqueColumn, body: Json, f: Fault)
    requires Valid(db) && Coherent(c, db)
    requires ValidCreateRequest(body) ==> UpsertAll(db, col, RequestedUsers(body)).overwritten == []
    requires !Fails(f, 1)
    ensures Coherent(CreateUser(AsWritten, c, db, col, body, f).cache, CreateUser(AsWritten, c, db, col, body, f).db)
  {
    if ValidCreateRequest(body) {
      var r := UpsertAll(db, col, RequestedUsers(body));
      assert CreateInvalidates(AsWritten, r) == CreateInvalidates(Corrected, r);
    }
    assert CreateUser(AsWritten, c, db, col, body, f) == CreateUser(Corrected, c, db, col, body, f);
    CreateUserPreservesCoherence(c, db, col, body, f);
  }

  /** As written, with no unique index every create only inserts, so it keeps
      the cache coherent unless its invalidation fails. */
  lemma AsWrittenCreateWithoutIndexPreservesCoherence(c: Cache, db: Db, body: Json, f: Fault)
    requires Valid(db) && Coherent(c, db)
    requires !Fails(f, 1)
    ensures Coherent(CreateUser(AsWritten, c, db, NoUniqueColumn, body, f).cache,
                     CreateUser(AsWritten, c, db, NoUniqueColumn, body, f).db)
  {
    if ValidCreateRequest(body) {
      UpsertAllWithoutIndexInserts(db, RequestedUsers(body));
    }
    AsWrittenCreateUserPreservesCoherence(c, db, NoUniqueColumn, body, f);
  }
}

=== FILE: data_server.dfy ===
/** The cache-only `/data` server: a single item is served from the cache or
    made up from its id and cached for a minute, the whole cache can be listed,
    and a post only drops the item's key. There is no record store; the made-up
    value stands in for one. */
module DataServer {
  import opened Options
  import opened Json
  import opened Http
  import opened Faults
  import opened CacheStore
  import Codec

  /** Seconds an item lives in the cache. */
  const DataTtl: nat := 60

  const ServerErrorMessage := "Internal Server Error"

  /** The cache after a request, with what the server answered. */
  datatype Served = Served(response: Response, cache: Cache)

  /** `{ id, value: "Value for <id>" }`, the item made up for `id`. */
  function Generated(id: string): (j: Json)
    ensures Property(j, "id") == Some(Str(id))
    ensures Property(j, "value") == Some(Str("Value for " + id)) && Truthy(Property(j, "value"))
    ensures forall key :: key != "id" && key != "value" ==> Property(j, key) == None
  {
    var j := Obj2("id", Str(id), "value", Str("Value for " + id));
    Obj2Properties("id", Str(id), "value", Str("Value for " + id), "id");
    Obj2Properties("id", Str(id), "value", Str("Value for " + id), "value");
    assert forall key :: key != "id" && key != "value" ==> Property(j, key) == None by {
      forall key | key != "id" && key != "value" {
        Obj2Properties("id", Str(id), "value", Str("Value for " + id), key);
      }
    }
    j
  }

  /** `GET /data/:id`, the caching middleware followed by the route. Store calls
      are the cache read (0), inside the middleware's `try`, and the cache write
      (1), outside any `try`, so a failed write answers nothing. */
  function GetDataById(c: Cache, id: string, f: Fault): (o: Served)
    ensures Fails(f, 0) ==> o == Served(Reply(InternalError, ErrorBody(ServerErrorMessage)), c)
    ensures !Fails(f, 0) && Hit(c, id).Some? ==>
      o == Served(ServeCached(Hit(c, id).value, ErrorBody(ServerErrorMessage)), c)
    ensures !Fails(f, 0) && Hit(c, id).None? && Fails(f, 1) ==> o == Served(NoReply, c)
    ensures Succeeds(f, 2) && Hit(c, id).None? ==>
      && o.response == Reply(OK, Generated(id))
      && o.cache == SetEx(c, id, DataTtl, Codec.Encode(Generated(id)))
  {
    if Fails(f, 0) then Served(Reply(InternalError, ErrorBody(ServerErrorMessage)), c)
    else
      match Hit(c, id)
      case Some(text) => Served(ServeCached(text, ErrorBody(ServerErrorMessage)), c)
      case None =>
        var data := Generated(id);
        if Fails(f, 1) then Served(NoReply, c)
        else Served(Reply(OK, data), SetEx(c, id, DataTtl, Codec.Encode(data)))
  }

  /** The members `data[key] = JSON.parse(get(key))` adds for `keys` in order,
      or None when some stored text does not parse. */
  function CollectMembers(c: Cache, keys: seq<string>): (r: Option<seq<Member>>)
    requires forall i :: 0 <= i < |keys| ==> keys[i] in c
    ensures r.None? <==> exists i :: 0 <= i < |keys| && Codec.Decode(c[keys[i]].text).None?
    ensures r.Some? ==> |r.value| == |keys|
    ensures r.Some? ==> forall i :: 0 <= i < |keys| ==>
      Codec.Decode(c[keys[i]].text).Some? && r.value[i] == Member(keys[i], Codec.Decode(c[keys[i]].text).value)
    decreases |keys|
  {
    if |keys| == 0 then Some([])
    else
      match Codec.Decode(c[keys[0]].text)
      case None => None
      case Some(v) =>
        match CollectMembers(c, keys[1..])
        case None =>
          assert forall i :: 0 <= i < |keys[1..]| ==> keys[1..][i] == keys[i + 1];
          None
        case Some(ms) =>
          var r := [Member(keys[0], v)] + ms;
          assert forall i :: 0 < i < |keys| ==> r[i] == ms[i - 1] && keys[i] == keys[1..][i - 1];
          Some(r)
  }

  /** The object built from every key of the cache has a property for exactly
      those keys, each holding its key's parsed text. */
  lemma CollectedProperties(c: Cache, keys: seq<string>)
    requires forall k :: k in keys <==> k in c
    requires CollectMembers(c, keys).Some?
    ensures forall k ::
      LastMember(CollectMembers(c, keys).value, k) == if k in c then Codec.Decode(c[k].text) else None
  {
    var ms := CollectMembers(c, keys).value;
    forall k
      ensures LastMember(ms, k) == if k in c then Codec.Decode(c[k].text) else None
    {
      var r := LastMember(ms, k);
      if k in c {
        var i :| 0 <= i < |keys| && keys[i] == k;
        assert ms[i].key == k;
        var j :| 0 <= j < |ms| && ms[j] == Member(k, r.value);
        assert keys[j] == k;
      } else {
        assert forall i :: 0 <= i < |ms| ==> ms[i].key == keys[i] && keys[i] in c;
      }
    }
  }

  /** Every stored text parses. */
  ghost predicate AllParse(c: Cache) {
    forall k :: k in c ==> Codec.Decode(c[k].text).Some?
  }

  /** `GET /data`. `keys` is the cache's key list as `keys('*')` returns it, in
      the store's order. Store calls are the listing (0) and one read per key
      (1 to |keys|). */
  function ListAll(c: Cache, keys: seq<string>, f: Fault): (o: Served)
    requires forall k :: k in keys <==> k in c
    ensures o.cache == c
    ensures Fails(f, 0) ==> o.response == Reply(InternalError, ErrorBody(ServerErrorMessage))
    ensures !Fails(f, 0) && c == map[] ==> o.response == Reply(OK, MessageBody("No data found in cache"))
    ensures c != map[] && (!Succeeds(f, |keys| + 1) || !AllParse(c)) ==>
      o.response == Reply(InternalError, ErrorBody(ServerErrorMessage))
    ensures c != map[] && Succeeds(f, |keys| + 1) && AllParse(c) ==>
      && HasStatus(o.response, OK) && o.response.body.Obj?
      && forall k :: Property(o.response.body, k) ==
           if k in c then Codec.Decode(c[k].text) else None
  {
    if Fails(f, 0) then Served(Reply(InternalError, ErrorBody(ServerErrorMessage)), c)
    else if |keys| == 0 then
      assert c == map[];
      Served(Reply(OK, MessageBody("No data found in cache")), c)
    else if !Succeeds(f, |keys| + 1) then
      assert keys[0] in c;
      Served(Reply(InternalError, ErrorBody(ServerErrorMessage)), c)
    else
      assert keys[0] in c;
      match CollectMembers(c, keys)
      case None => Served(Reply(InternalError, ErrorBody(ServerErrorMessage)), c)
      case Some(ms) =>
        CollectedProperties(c, keys);
        Served(Reply(OK, Obj(ms)), c)
  }

  /** What a post answers: `{ message: 'Data updated', newData: { id, value } }`. */
  function UpdatedBody(key: string, value: Json): Json {
    Obj([Member("message", Str("Data updated")), Member("newData", Obj2("id", Str(key), "value", value))])
  }

  /** `POST /data`: with a truthy `id` and `value`, drop the key `String(id)`
      (store call 0) and answer with the new item, which is stored nowhere. */
  function PostData(c: Cache, body: Json, f: Fault): (o: Served)
    ensures !Truthy(Property(body, "id")) || !Truthy(Property(body, "value")) ==>
      o == Served(Reply(BadRequest, ErrorBody("ID and value are required")), c)
    ensures Truthy(Property(body, "id")) && Truthy(Property(body, "value")) && Fails(f, 0) ==>
      o == Served(Reply(InternalError, ErrorBody("Failed to update data")), c)
    ensures Truthy(Property(body, "id")) && Truthy(Property(body, "value")) && !Fails(f, 0) ==>
      var key := ToJsString(Property(body, "id").value);
      && o.response == Reply(OK, UpdatedBody(key, Property(body, "value").value))
      && key !in o.cache
      && SameOutside(c, o.cache, {key})
  {
    var id := Property(body, "id");
    var value := Property(body, "value");
    if !Truthy(id) || !Truthy(value) then Served(Reply(BadRequest, ErrorBody("ID and value are required")), c)
    else
      var key := ToJsString(id.value);
      if Fails(f, 0) then Served(Reply(InternalError, ErrorBody("Failed to update data")), c)
      else Served(Reply(OK, UpdatedBody(key, value.value)), Del(c, {key}))
  }
}

/** What the `/data` server promises across requests: the first read of an id
    caches the made-up item and the next read serves it back; a cache only ever
    filled by this server holds made-up items, so every read and every listing
    answers them; and a post's value is never served. */
module DataProperties {
  import opened Options
  import opened Json
  import opened Http
  import opened Faults
  import opened CacheStore
  import opened DataServer
  import Codec
  import Decimal

  /** A miss caches the item, and the next read is a hit answering with the
      same item and leaving the cache as it is. */
  lemma GetDataTwice(c: Cache, id: string)
    requires Hit(c, id).None?
    ensures var o1 := GetDataById(c, id, NoFault);
            var o2 := GetDataById(o1.cache, id, NoFault);
            && o1.response == Reply(OK, Generated(id))
            && Hit(o1.cache, id).Some?
            && o2.response == o1.response
            && o2.cache == o1.cache
  {
    Codec.DecodeEncode(Generated(id));
  }

  /** Each entry holds the encoding of the item made up for its key. */
  ghost predicate OnlyGenerated(c: Cache) {
    forall k :: k in c ==> c[k].text == Codec.Encode(Generated(k))
  }

  /** Reading keeps the cache holding made-up items only, and whether it hits
      or misses, a read that gets an answer answers the item for `id`. */
  lemma GetDataServesGenerated(c: Cache, id: string, f: Fault)
    requires OnlyGenerated(c)
    ensures OnlyGenerated(GetDataById(c, id, f).cache)
    ensures Succeeds(f, 2) ==> GetDataById(c, id, f).response == Reply(OK, Generated(id))
  {
    Codec.DecodeEncode(Generated(id));
  }

  lemma PostDataPreservesOnlyGenerated(c: Cache, body: Json, f: Fault)
    requires OnlyGenerated(c)
    ensures OnlyGenerated(PostData(c, body, f).cache)
  {
  }

  lemma ExpirePreservesOnlyGenerated(c: Cache, key: string)
    requires OnlyGenerated(c)
    ensures OnlyGenerated(Expire(c, key))
  {
  }

  /** Listing a non-empty cache of made-up items maps exactly its keys, each to
      its item. */
  lemma ListAllOfGenerated(c: Cache, keys: seq<string>, f: Fault)
    requires forall k :: k in keys <==> k in c
    requires OnlyGenerated(c) && c != map[] && Succeeds(f, |keys| + 1)
    ensures HasStatus(ListAll(c, keys, f).response, OK)
    ensures forall k ::
      Property(ListAll(c, keys, f).response.body, k) == if k in c then Some(Generated(k)) else None
  {
    forall k | k in c
      ensures Codec.Decode(c[k].text) == Some(Generated(k))
    {
      Codec.DecodeEncode(Generated(k));
    }
  }

  /** A post drops the key and stores nothing, so the next read of
      `String(id)` misses and answers the made-up item, not the posted value. */
  lemma PostThenGetServesGenerated(c: Cache, body: Json)
    requires Truthy(Property(body, "id")) && Truthy(Property(body, "value"))
    ensures var key := ToJsString(Property(body, "id").value);
            var o1 := PostData(c, body, NoFault);
            var o2 := GetDataById(o1.cache, key, NoFault);
            && o1.response == Reply(OK, UpdatedBody(key, Property(body, "value").value))
            && o2.response == Reply(OK, Generated(key))
  {
  }

  /** Reading one id into an empty cache and listing it. */
  lemma GetThenListAll(id: string)
    ensures var o1 := GetDataById(map[], id, NoFault);
            var o2 := ListAll(o1.cache, [id], NoFault);
            && HasStatus(o2.response, OK)
            && Property(o2.response.body, id) == Some(Generated(id))
  {
    var o1 := GetDataById(map[], id, NoFault);
    assert o1.cache == map[id := Entry(Codec.Encode(Generated(id)), DataTtl)];
    ListAllOfGenerated(o1.cache, [id], NoFault);
  }

  /** A post of a positive number `n` as the id drops the key `String(n)`,
      which is the key `GET /data/<n>` caches its item under. */
  lemma PostNumericIdDropsReadKey(c: Cache, n: nat, value: Json)
    requires 0 < n < 0x20_0000_0000_0000 && Truthy(Some(value))
    ensures var key := Decimal.FromNat(n);
            var o1 := GetDataById(c, key, NoFault);
            var o2 := PostData(o1.cache, Obj2("id", Num(n), "value", value), NoFault);
            && key in o1.cache
            && o2.response == Reply(OK, UpdatedBody(key, value))
            && key !in o2.cache
            && SameOutside(o1.cache, o2.cache, {key})
  {
    var key := Decimal.FromNat(n);
    var body := Obj2("id", Num(n), "value", value);
    var o1 := GetDataById(c, key, NoFault);
    assert key in o1.cache;
    Obj2Properties("id", Num(n), "value", value, "id");
    Obj2Properties("id", Num(n), "value", value, "value");
    assert Truthy(Property(body, "id")) && Truthy(Property(body, "value"));
    assert ToJsString(Property(body, "id").value) == key;
  }
}

=== FILE: decimal.dfy ===
/** Decimal numerals over `string`: the canonical numeral of a natural number,
    the value of a run of digits, and the numeric prefix of a string.

    The numeric prefix is how the record store compares an integer `id` column with
    the raw string taken from a request path (`WHERE id = ?` bound to `"01"` matches
    row 1, bound to `"abc"` matches nothing since ids start at 1). */
module Decimal {

  predicate IsDigit(c: char) {
    '0' <= c <= '9'
  }

  predicate AllDigits(s: string) {
    forall i :: 0 <= i < |s| ==> IsDigit(s[i])
  }

  function DigitValue(c: char): (d: nat)
    requires IsDigit(c)
    ensures d < 10
  {
    c as int - '0' as int
  }

  function DigitChar(d: nat): (c: char)
    requires d < 10
    ensures IsDigit(c) && DigitValue(c) == d
  {
    ('0' as int + d) as char
  }

  /** The canonical decimal numeral of `n`: digits only, never empty, and no
      leading zero unless the numeral is "0" itself. */
  function FromNat(n: nat): (s: string)
    ensures |s| >= 1 && AllDigits(s)
    ensures |s| > 1 ==> s[0] != '0'
    ensures n < 10 <==> |s| == 1
    decreases n
  {
    if n < 10 then [DigitChar(n)] else FromNat(n / 10) + [DigitChar(n % 10)]
  }

  /** The number a run of digits denotes (most significant digit first). */
  function Value(ds: string): nat
    requires AllDigits(ds)
  {
    if |ds| == 0 then 0 else Value(ds[..|ds| - 1]) * 10 + DigitValue(ds[|ds| - 1])
  }

  /** Reading back a canonical numeral gives the number it was made from. */
  lemma {:induction false} ValueOfFromNat(n: nat)
    ensures Value(FromNat(n)) == n
    decreases n
  {
    var s := FromNat(n);
    if n >= 10 {
      ValueOfFromNat(n / 10);
      assert s[..|s| - 1] == FromNat(n / 10);
    }
  }

  /** Canonical numerals of distinct numbers are distinct. */
  lemma FromNatInjective(m: nat, n: nat)
    ensures FromNat(m) == FromNat(n) <==> m == n
  {
    if FromNat(m) == FromNat(n) {
      ValueOfFromNat(m);
      ValueOfFromNat(n);
    }
  }

  /** The length of the longest prefix of `s` made of digits. */
  function DigitRun(s: string): (k: nat)
    ensures k <= |s|
    ensures AllDigits(s[..k])
    ensures k < |s| ==> !IsDigit(s[k])
    decreases |s|
  {
    if |s| == 0 || !IsDigit(s[0]) then 0
    else
      var k := 1 + DigitRun(s[1..]);
      assert s[..k] == [s[0]] + s[1..][..k - 1];
      k
  }

  /** A run of digits followed by a non-digit (or by nothing) is read whole. */
  lemma {:induction false} DigitRunOfNumeral(ds: string, rest: string)
    requires AllDigits(ds)
    requires |rest| > 0 ==> !IsDigit(rest[0])
    ensures DigitRun(ds + rest) == |ds|
    decreases |ds|
  {
    if |ds| > 0 {
      assert (ds + rest)[1..] == ds[1..] + rest;
      DigitRunOfNumeral(ds[1..], rest);
    }
  }

  /** The integer a string converts to when compared with an integer column:
      the value of its leading digits, or 0 when it does not start with one. */
  function NumericPrefix(s: string): nat {
    Value(s[..DigitRun(s)])
  }

  /** A canonical numeral converts back to its own number. */
  lemma NumericPrefixOfFromNat(n: nat)
    ensures NumericPrefix(FromNat(n)) == n
  {
    var s := FromNat(n);
    DigitRunOfNumeral(s, []);
    assert s + [] == s;
    assert s[..|s|] == s;
    ValueOfFromNat(n);
  }
}

=== FILE: faults.dfy ===
/** Failures of the cache and record stores. A request issues its store calls in a
    fixed order, numbered from 0; a fault names the first call that fails and the
    error message it rejects with (no later call is issued, since the rejection
    leaves the handler's straight-line code). */
module Faults {
  datatype Fault = NoFault | FailAt(call: nat, message: string)

  predicate Fails(f: Fault, call: nat) {
    f.FailAt? && f.call == call
  }

  /** No store call before the `n`-th one fails. */
  predicate Succeeds(f: Fault, n: nat) {
    !(f.FailAt? && f.call < n)
  }
}

=== FILE: http.dfy ===
/** The response a handler sends: a status with a JSON body, or nothing at all
    when the handler's promise rejects outside any `try` (Express then answers
    no request). */
module Http {
  import opened Options
  import opened Json
  import Codec

  datatype Response = Reply(status: nat, body: Json) | NoReply

  const OK := 200
  const Created := 201
  const BadRequest := 400
  const NotFound := 404
  const InternalError := 500

  predicate HasStatus(r: Response, status: nat) {
    r.Reply? && r.status == status
  }

  /** `{ error: message }` */
  function ErrorBody(message: string): Json {
    Obj([Member("error", Str(message))])
  }

  /** `{ success: false, error: message }` */
  function FailureBody(message: string): Json {
    Obj2("success", Bool(false), "error", Str(message))
  }

  /** `{ message: text }` */
  function MessageBody(text: string): Json {
    Obj([Member("message", Str(text))])
  }

  /** `{ success: true, data: data }` */
  function SuccessData(data: Json): Json {
    Obj2("success", Bool(true), "data", data)
  }

  /** A cache hit answers with the parsed text; text that does not parse makes
      `JSON.parse` throw into the handler's `catch`. */
  function ServeCached(text: string, parseError: Json): (r: Response)
    ensures Codec.Decode(text).Some? ==> r == Reply(OK, Codec.Decode(text).value)
    ensures Codec.Decode(text).None? ==> r == Reply(InternalError, parseError)
  {
    match Codec.Decode(text)
    case Some(j) => Reply(OK, j)
    case None => Reply(InternalError, parseError)
  }
}

=== FILE: json.dfy ===
/** JSON values as the request bodies, the cached payloads and the responses carry
    them, with the pieces of JavaScript semantics the handlers rely on: property
    access, truthiness and `String(v)`. */
module Json {
  import opened Options
  import Decimal

  /** A JSON value. Numbers are integers; object members keep their order. */
  datatype Json =
    | Null
    | Bool(b: bool)
    | Num(n: int)
    | Str(s: string)
    | Arr(items: seq<Json>)
    | Obj(members: seq<Member>)

  datatype Member = Member(key: string, val: Json)

  /** The value of `key` in a list of members; the last occurrence wins, as
      `JSON.parse` keeps the last of duplicated keys. */
  function LastMember(ms: seq<Member>, key: string): (r: Option<Json>)
    ensures r.None? <==> forall i :: 0 <= i < |ms| ==> ms[i].key != key
    ensures r.Some? ==>
      exists i :: 0 <= i < |ms| && ms[i] == Member(key, r.value) && (forall j :: i < j < |ms| ==> ms[j].key != key)
    decreases |ms|
  {
    if |ms| == 0 then None
    else if ms[|ms| - 1].key == key then Some(ms[|ms| - 1].val)
    else
      var r := LastMember(ms[..|ms| - 1], key);
      LastMemberOfInit(ms, ms[..|ms| - 1], key, r);
      r
  }

  /** What `LastMember` states of all but the last member carries over to the
      whole list when the last member has another key. */
  lemma LastMemberOfInit(ms: seq<Member>, init: seq<Member>, key: string, r: Option<Json>)
    requires |ms| > 0 && init == ms[..|ms| - 1] && ms[|ms| - 1].key != key
    requires r.None? <==> forall i :: 0 <= i < |init| ==> init[i].key != key
    requires r.Some? ==>
      exists i :: 0 <= i < |init| && init[i] == Member(key, r.value) && (forall j :: i < j < |init| ==> init[j].key != key)
    ensures r.None? <==> forall i :: 0 <= i < |ms| ==> ms[i].key != key
    ensures r.Some? ==>
      exists i :: 0 <= i < |ms| && ms[i] == Member(key, r.value) && (forall j :: i < j < |ms| ==> ms[j].key != key)
  {
    assert forall j :: 0 <= j < |init| ==> init[j] == ms[j];
    if r.Some? {
      var i :| 0 <= i < |init| && init[i] == Member(key, r.value) && (forall j :: i < j < |init| ==> init[j].key != key);
      assert ms[i] == Member(key, r.value);
    }
  }

  /** `v.key` for a parsed JSON value: only objects have the properties the
      handlers read (`users`, `name`, `email`, `id`, `value`). */
  function Property(v: Json, key: string): Option<Json> {
    if v.Obj? then LastMember(v.members, key) else None
  }

  /** `v.key` is undefined exactly when `v` is not an object or has no member
      named `key`; otherwise it is the value of the last such member. */
  lemma PropertyOfMembers(v: Json, key: string)
    ensures Property(v, key).None? <==> !v.Obj? || forall i :: 0 <= i < |v.members| ==> v.members[i].key != key
    ensures Property(v, key).Some? ==>
      exists i :: 0 <= i < |v.members| && v.members[i] == Member(key, Property(v, key).value) &&
        (forall j :: i < j < |v.members| ==> v.members[j].key != key)
  {
  }

  /** JavaScript truthiness of a value that may be `undefined`: the falsy
      values are `undefined`, `null`, `false`, `0` and the empty string. */
  predicate Truthy(v: Option<Json>): (b: bool)
    ensures !b <==> v.None? || v.value == Null || v.value == Bool(false) || v.value == Num(0) || v.value == Str("")
  {
    match v
    case None => false
    case Some(Null) => false
    case Some(Bool(b)) => b
    case Some(Num(n)) => n != 0
    case Some(Str(s)) => s != ""
    case Some(Arr(_)) => true
    case Some(Obj(_)) => true
  }

  /** The decimal text of an integer, with a leading minus when negative. */
  function IntText(n: int): string {
    if n < 0 then "-" + Decimal.FromNat(-n) else Decimal.FromNat(n)
  }

  /** `String(v)`. Arrays are joined with commas, a `null` element becoming the
      empty string; every object becomes "[object Object]". */
  function ToJsString(v: Json): (s: string)
    ensures v.Str? ==> s == v.s
    ensures v.Num? ==> s == IntText(v.n)
    ensures v.Num? && v.n >= 0 ==> s == Decimal.FromNat(v.n)
    ensures v.Bool? ==> s == if v.b then "true" else "false"
    ensures v == Null ==> s == "null"
    ensures v.Obj? ==> s == "[object Object]"
    ensures v.Arr? && |v.items| == 0 ==> s == ""
    ensures v.Arr? && |v.items| == 1 ==> s == if v.items[0] == Null then "" else ToJsString(v.items[0])
    decreases v, 1
  {
    match v
    case Null => "null"
    case Bool(b) => if b then "true" else "false"
    case Num(n) => IntText(n)
    case Str(s) => s
    case Arr(items) => JoinElements(items)
    case Obj(_) => "[object Object]"
  }

  /** `items.join(",")` as `String` applies it to an array. */
  function JoinElements(items: seq<Json>): (s: string)
    ensures |items| == 0 ==> s == ""
    decreases items, 0
  {
    if |items| == 0 then ""
    else
      var head := if items[0] == Null then "" else ToJsString(items[0]);
      if |items| == 1 then head else head + "," + JoinElements(items[1..])
  }

  /** An object literal with the given members, in order. */
  function Obj2(k1: string, v1: Json, k2: string, v2: Json): Json {
    Obj([Member(k1, v1), Member(k2, v2)])
  }

  /** The two properties of a two-member object literal, the second winning
      when both keys are the same. */
  lemma Obj2Properties(k1: string, v1: Json, k2: string, v2: Json, key: string)
    ensures key == k2 ==> Property(Obj2(k1, v1, k2, v2), key) == Some(v2)
    ensures key == k1 && key != k2 ==> Property(Obj2(k1, v1, k2, v2), key) == Some(v1)
    ensures key != k1 && key != k2 ==> Property(Obj2(k1, v1, k2, v2), key) == None
  {
    var ms := Obj2(k1, v1, k2, v2).members;
    assert ms[..1] == [Member(k1, v1)];
    assert LastMember(ms[..1], key) == if key == k1 then Some(v1) else None by {
      assert ms[..1][..0] == [];
    }
  }
}

=== FILE: options.dfy ===
/** Option, used for JavaScript's `undefined` and for store lookups that miss. */
module Options {
  datatype Option<+T> = None | Some(value: T)
}

=== FILE: record_store.dfy ===
/** The `users` table of the relational store, reduced to what the controller's
    four statements observe: rows keyed by an auto-increment id, each holding a
    name and an email, and at most one column (unknown to the controller, so a
    parameter here) under a unique index that `ON DUPLICATE KEY UPDATE` reacts to.

    A column holds the JSON value the request supplied; the driver's `undefined`
    becomes SQL NULL (`Null`). Ids are compared with the numeric prefix of the
    path parameter, as an integer column is compared with a string. */
module RecordStore {
  import opened Options
  import opened Json
  import Decimal

  datatype User = User(name: Json, email: Json)

  /** The table and its auto-increment counter. */
  datatype Db = Db(rows: map<nat, User>, nextId: nat)

  /** One row as a query returns it. */
  datatype Row = Row(id: nat, user: User)

  /** Ids are assigned from 1 upwards and always below the counter. */
  ghost predicate Valid(db: Db) {
    && 1 <= db.nextId
    && forall id :: id in db.rows ==> 1 <= id < db.nextId
  }

  /** The column carrying a unique index, if any. */
  datatype UniqueColumn = NoUniqueColumn | UniqueName | UniqueEmail

  /** The entry a row has in the unique index: none without an index, and none
      for a NULL value. */
  function IndexedValue(col: UniqueColumn, u: User): Option<Json> {
    match col
    case NoUniqueColumn => None
    case UniqueName => if u.name == Null then None else Some(u.name)
    case UniqueEmail => if u.email == Null then None else Some(u.email)
  }

  /** Whether writing `incoming` would hit the unique index on the row holding
      `existing`. NULLs never collide in a unique index. */
  predicate Collides(col: UniqueColumn, existing: User, incoming: User): (b: bool)
    ensures b <==> IndexedValue(col, incoming).Some? && IndexedValue(col, existing) == IndexedValue(col, incoming)
  {
    match col
    case NoUniqueColumn => false
    case UniqueName => incoming.name != Null && existing.name == incoming.name
    case UniqueEmail => incoming.email != Null && existing.email == incoming.email
  }

  /** `{ id, name, email }`, the object a row becomes in a query result. */
  function RowJson(r: Row): Json {
    Obj([Member("id", Num(r.id)), Member("name", r.user.name), Member("email", r.user.email)])
  }

  function RowsJson(rs: seq<Row>): (j: Json)
    ensures j.Arr? && |j.items| == |rs|
    ensures forall i :: 0 <= i < |rs| ==> j.items[i] == RowJson(rs[i])
  {
    Arr(seq(|rs|, i requires 0 <= i < |rs| => RowJson(rs[i])))
  }

  /** The rows with ids in [lo, hi), in ascending id order. */
  function Scan(rows: map<nat, User>, lo: nat, hi: nat): (r: seq<Row>)
    ensures forall x :: x in r <==> lo <= x.id < hi && x.id in rows && rows[x.id] == x.user
    ensures forall i, j :: 0 <= i < j < |r| ==> r[i].id < r[j].id
    decreases hi - lo
  {
    if lo >= hi then []
    else
      var rest := Scan(rows, lo + 1, hi);
      if lo in rows then
        var r := [Row(lo, rows[lo])] + rest;
        assert forall i :: 0 < i < |r| ==> r[i] == rest[i - 1];
        r
      else rest
  }

  /** `SELECT * FROM users`: every row, in primary-key order. */
  function SelectAll(db: Db): seq<Row> {
    Scan(db.rows, 0, db.nextId)
  }

  /** The full scan lists each row, and nothing else, in ascending id order. */
  lemma SelectAllListsEveryRow(db: Db)
    requires Valid(db)
    ensures forall id :: id in db.rows ==> Row(id, db.rows[id]) in SelectAll(db)
    ensures forall x :: x in SelectAll(db) ==> x.id in db.rows && db.rows[x.id] == x.user
    ensures forall i, j :: 0 <= i < j < |SelectAll(db)| ==> SelectAll(db)[i].id < SelectAll(db)[j].id
  {
  }

  /** The id a path parameter denotes when compared with the integer `id`
      column: its leading digits, so "01" and "1abc" both denote 1 and "abc"
      denotes 0, which no row has. */
  function SqlId(param: string): (id: nat)
    ensures |param| == 0 || !Decimal.IsDigit(param[0]) ==> id == 0
  {
    Decimal.NumericPrefix(param)
  }

  /** A numeral followed by anything not starting with a digit denotes the
      numeral's number: `"7"` and `"7abc"` both denote 7. */
  lemma SqlIdOfNumeral(n: nat, rest: string)
    requires |rest| > 0 ==> !Decimal.IsDigit(rest[0])
    ensures SqlId(Decimal.FromNat(n) + rest) == n
  {
    var s := Decimal.FromNat(n) + rest;
    Decimal.DigitRunOfNumeral(Decimal.FromNat(n), rest);
    assert s[..|Decimal.FromNat(n)|] == Decimal.FromNat(n);
    Decimal.ValueOfFromNat(n);
  }

  /** `SELECT * FROM users WHERE id = ?`: the matching row, if any. */
  function SelectById(db: Db, param: string): (r: seq<Row>)
    ensures |r| <= 1
    ensures |r| == 1 <==> SqlId(param) in db.rows
    ensures |r| == 1 ==> r[0] == Row(SqlId(param), db.rows[SqlId(param)])
  {
    var id := SqlId(param);
    if id in db.rows then [Row(id, db.rows[id])] else []
  }

  /** The smallest id in [lo, hi) whose row collides with `incoming`. */
  function FindCollision(rows: map<nat, User>, col: UniqueColumn, incoming: User, lo: nat, hi: nat): (r: Option<nat>)
    ensures r.Some? ==> lo <= r.value < hi && r.value in rows && Collides(col, rows[r.value], incoming)
    ensures r.Some? ==> forall id :: lo <= id < r.value && id in rows ==> !Collides(col, rows[id], incoming)
    ensures r.None? ==> forall id :: lo <= id < hi && id in rows ==> !Collides(col, rows[id], incoming)
    decreases hi - lo
  {
    if lo >= hi then None
    else if lo in rows && Collides(col, rows[lo], incoming) then Some(lo)
    else FindCollision(rows, col, incoming, lo + 1, hi)
  }

  /** The effect of one row of `INSERT … ON DUPLICATE KEY UPDATE`. */
  datatype UpsertStep = UpsertStep(db: Db, affected: nat, overwritten: Option<nat>)

  /** Inserts `u` under a fresh id, or, when it collides with an existing row,
      overwrites that row's name and email. Affected rows follow MySQL with the
      found-rows client flag: 1 for an insert, 2 for a changed row, 1 for a row
      already holding these values. */
  function UpsertOne(db: Db, col: UniqueColumn, u: User): (s: UpsertStep)
    requires Valid(db)
    ensures Valid(s.db)
    ensures s.overwritten.None? ==>
      && (forall id :: id in db.rows ==> !Collides(col, db.rows[id], u))
      && s.db == Db(db.rows[db.nextId := u], db.nextId + 1)
      && db.nextId !in db.rows
      && s.affected == 1
    ensures s.overwritten.Some? ==>
      && s.overwritten.value in db.rows
      && Collides(col, db.rows[s.overwritten.value], u)
      && s.db == Db(db.rows[s.overwritten.value := u], db.nextId)
      && s.affected == (if db.rows[s.overwritten.value] == u then 1 else 2)
  {
    match FindCollision(db.rows, col, u, 0, db.nextId)
    case None => UpsertStep(Db(db.rows[db.nextId := u], db.nextId + 1), 1, None)
    case Some(id) => UpsertStep(Db(db.rows[id := u], db.nextId), if db.rows[id] == u then 1 else 2, Some(id))
  }

  /** The effect of a whole multi-row upsert statement. */
  datatype UpsertResult = UpsertResult(db: Db, affected: nat, overwritten: seq<nat>)

  /** Rows of the statement are applied in order; a later row may collide with
      one inserted earlier by the same statement. */
  function UpsertAll(db: Db, col: UniqueColumn, us: seq<User>): (r: UpsertResult)
    requires Valid(db)
    ensures Valid(r.db)
    ensures db.nextId <= r.db.nextId
    ensures |us| <= r.affected <= 2 * |us|
    ensures forall id :: id in r.db.rows <==> id in db.rows || db.nextId <= id < r.db.nextId
    ensures forall id :: id in db.rows && id !in r.overwritten ==> r.db.rows[id] == db.rows[id]
    ensures forall i :: 0 <= i < |r.overwritten| ==> r.overwritten[i] in r.db.rows
    ensures |us| > 0 ==> us[|us| - 1] in r.db.rows.Values
    decreases |us|
  {
    if |us| == 0 then UpsertResult(db, 0, [])
    else
      var s := UpsertOne(db, col, us[0]);
      var r := UpsertAll(s.db, col, us[1..]);
      var touched := if s.overwritten.Some? then [s.overwritten.value] else [];
      assert |us| > 1 ==> us[1..][|us[1..]| - 1] == us[|us| - 1];
      UpsertResult(r.db, s.affected + r.affected, touched + r.overwritten)
  }

  /** Without a unique index every pair is a fresh insert: nothing is
      overwritten, and the statement affects exactly one row per pair. */
  lemma {:induction false} UpsertAllWithoutIndexInserts(db: Db, us: seq<User>)
    requires Valid(db)
    ensures UpsertAll(db, NoUniqueColumn, us).overwritten == []
    ensures UpsertAll(db, NoUniqueColumn, us).affected == |us|
    ensures UpsertAll(db, NoUniqueColumn, us).db.nextId == db.nextId + |us|
    decreases |us|
  {
    if |us| > 0 {
      var s := UpsertOne(db, NoUniqueColumn, us[0]);
      assert s.overwritten.None?;
      UpsertAllWithoutIndexInserts(s.db, us[1..]);
    }
  }

  /** Collision is a relation on the unique column's value, so it is
      symmetric. */
  lemma CollidesSymmetric(col: UniqueColumn, a: User, b: User)
    ensures Collides(col, a, b) <==> Collides(col, b, a)
  {
  }

  /** The unique index holds: no two distinct rows collide. */
  ghost predicate Unique(col: UniqueColumn, rows: map<nat, User>) {
    forall a, b :: a in rows && b in rows && a != b ==> !Collides(col, rows[a], rows[b])
  }

  lemma UpsertOnePreservesUnique(db: Db, col: UniqueColumn, u: User)
    requires Valid(db) && Unique(col, db.rows)
    ensures Unique(col, UpsertOne(db, col, u).db.rows)
  {
    var s := UpsertOne(db, col, u);
    var rows := s.db.rows;
    forall a, b | a in rows && b in rows && a != b
      ensures !Collides(col, rows[a], rows[b])
    {
      CollidesSymmetric(col, rows[a], rows[b]);
      if s.overwritten.Some? {
        var x := s.overwritten.value;
        if a == x || b == x {
          var y := if a == x then b else a;
          assert y in db.rows && rows[y] == db.rows[y];
          // `u` carries row x's unique value, and row y did not collide with row x.
          assert !Collides(col, db.rows[y], db.rows[x]);
          assert !Collides(col, db.rows[y], u);
        }
      }
    }
  }

  /** A multi-row upsert keeps the unique index. */
  lemma {:induction false} UpsertAllPreservesUnique(db: Db, col: UniqueColumn, us: seq<User>)
    requires Valid(db) && Unique(col, db.rows)
    ensures Unique(col, UpsertAll(db, col, us).db.rows)
    decreases |us|
  {
    if |us| > 0 {
      UpsertOnePreservesUnique(db, col, us[0]);
      UpsertAllPreservesUnique(UpsertOne(db, col, us[0]).db, col, us[1..]);
    }
  }

  /** A row whose values no pair of the statement collides with keeps them. */
  lemma {:induction false} UpsertAllKeepsRow(db: Db, col: UniqueColumn, us: seq<User>, id: nat)
    requires Valid(db) && id in db.rows
    requires forall j :: 0 <= j < |us| ==> !Collides(col, db.rows[id], us[j])
    ensures id in UpsertAll(db, col, us).db.rows
    ensures UpsertAll(db, col, us).db.rows[id] == db.rows[id]
    decreases |us|
  {
    if |us| > 0 {
      var s := UpsertOne(db, col, us[0]);
      assert id in s.db.rows && s.db.rows[id] == db.rows[id];
      UpsertAllKeepsRow(s.db, col, us[1..], id);
    }
  }

  /** Pairs are applied in order: each pair is in the table afterwards unless
      a later pair of the same statement collides with it and overwrites it. */
  lemma {:induction false} UpsertAllPlacesEachPair(db: Db, col: UniqueColumn, us: seq<User>)
    requires Valid(db)
    ensures forall i :: 0 <= i < |us| && (forall j :: i < j < |us| ==> !Collides(col, us[i], us[j])) ==>
      us[i] in UpsertAll(db, col, us).db.rows.Values
    decreases |us|
  {
    if |us| > 0 {
      var s := UpsertOne(db, col, us[0]);
      var r := UpsertAll(db, col, us);
      var rest := us[1..];
      UpsertAllPlacesEachPair(s.db, col, rest);
      forall i | 0 <= i < |us| && (forall j :: i < j < |us| ==> !Collides(col, us[i], us[j]))
        ensures us[i] in r.db.rows.Values
      {
        if i == 0 {
          var id := if s.overwritten.Some? then s.overwritten.value else db.nextId;
          assert id in s.db.rows && s.db.rows[id] == us[0];
          assert forall j :: 0 <= j < |rest| ==> rest[j] == us[j + 1];
          UpsertAllKeepsRow(s.db, col, rest, id);
          assert r.db.rows[id] == us[0];
        } else {
          assert rest[i - 1] == us[i];
          assert forall j :: i - 1 < j < |rest| ==> rest[j] == us[j + 1];
        }
      }
    }
  }

  /** The outcome of an `UPDATE` or `DELETE` by id. */
  datatype Mutation = Mutation(db: Db, affected: nat) | DuplicateEntry

  /** `UPDATE users SET name = ?, email = ? WHERE id = ?`. With the found-rows
      flag the affected count is the number of matched rows, so rewriting a row
      with its own values still reports 1. Moving another row's unique value onto
      this row fails. */
  function UpdateById(db: Db, col: UniqueColumn, id: nat, u: User): (m: Mutation)
    requires Valid(db)
    ensures id !in db.rows ==> m == Mutation(db, 0)
    ensures m.DuplicateEntry? <==>
      id in db.rows && exists other :: other in db.rows && other != id && Collides(col, db.rows[other], u)
    ensures m.Mutation? && id in db.rows ==> m == Mutation(Db(db.rows[id := u], db.nextId), 1)
    ensures m.Mutation? ==> Valid(m.db)
  {
    if id !in db.rows then Mutation(db, 0)
    else
      var others := db.rows - {id};
      match FindCollision(others, col, u, 0, db.nextId)
      case Some(other) => DuplicateEntry
      case None =>
        assert forall other :: other in db.rows && other != id ==> other in others && others[other] == db.rows[other];
        Mutation(Db(db.rows[id := u], db.nextId), 1)
  }

  /** An update that does not fail keeps the unique index. */
  lemma UpdateByIdPreservesUnique(db: Db, col: UniqueColumn, id: nat, u: User)
    requires Valid(db) && Unique(col, db.rows)
    ensures UpdateById(db, col, id, u).Mutation? ==> Unique(col, UpdateById(db, col, id, u).db.rows)
  {
    var m := UpdateById(db, col, id, u);
    if m.Mutation? && id in db.rows {
      forall other | other in db.rows && other != id
        ensures !Collides(col, u, db.rows[other])
      {
        CollidesSymmetric(col, u, db.rows[other]);
      }
    }
  }

  /** `DELETE FROM users WHERE id = ?`. */
  function DeleteById(db: Db, id: nat): (m: Mutation)
    requires Valid(db)
    ensures m.Mutation? && Valid(m.db)
    ensures m.db.rows.Keys == db.rows.Keys - {id} && m.db.nextId == db.nextId
    ensures forall other :: other in m.db.rows ==> m.db.rows[other] == db.rows[other]
    ensures m.affected == (if id in db.rows then 1 else 0)
  {
    Mutation(Db(db.rows - {id}, db.nextId), if id in db.rows then 1 else 0)
  }
}

=== FILE: user_controller.dfy ===
/** The user controller's five handlers as transitions of the two stores: each
    takes the cache, the table and the request, and returns the response with the
    cache and table as they are afterwards.

    `Policy` selects how the handlers invalidate the per-user cache entries:
    `AsWritten` keys them by the raw path parameter and has `createUser` drop only
    the collection entry, exactly as the controller does; `Corrected` keys them by
    the canonical id and also drops the entries of rows an upsert overwrote. */
module UserController {
  import opened Options
  import opened Json
  import opened Http
  import opened Faults
  import opened CacheStore
  import opened RecordStore
  import Codec
  import Decimal

  /** The cache key of the whole collection. */
  const UsersKey := "users"

  /** Seconds a populated entry lives. */
  const UserTtl: nat := 300

  /** Stand-ins for the texts of errors thrown by the runtime, whose exact
      wording the controller only forwards. */
  const ParseErrorMessage := "Unexpected token in JSON"
  const NullUserMessage := "Cannot destructure property 'name' of 'user' as it is null."
  const DuplicateEntryMessage := "Duplicate entry for key"

  datatype Policy = AsWritten | Corrected

  /** `user:<id>` for a row id written canonically. */
  function CanonicalUserKey(id: nat): string {
    "user:" + Decimal.FromNat(id)
  }

  /** The per-user cache key a request for `param` uses. */
  function UserKey(p: Policy, param: string): (k: string)
    ensures |k| >= 5 && k[..5] == "user:" && k != UsersKey
    ensures p == AsWritten ==> k[5..] == param
    ensures p == Corrected ==> Decimal.AllDigits(k[5..]) && SqlId(k[5..]) == SqlId(param)
  {
    var k := match p
      case AsWritten => "user:" + param
      case Corrected => CanonicalUserKey(SqlId(param));
    assert k[4] == ':' && UsersKey[4] == 's';
    Decimal.NumericPrefixOfFromNat(SqlId(param));
    k
  }

  /** The state after a handler ran, with what it answered. */
  datatype Outcome = Outcome(response: Response, cache: Cache, db: Db)

  /** The collection as the full scan returns it. */
  function UsersJson(db: Db): Json {
    RowsJson(SelectAll(db))
  }

  /** `getUsers`: store calls are the cache read (0), the scan (1) and the
      cache write (2). A hit answers with the cached collection as it is; a miss
      answers `{ success: true, data }` and caches `data`. */
  function GetUsers(c: Cache, db: Db, f: Fault): (o: Outcome)
    ensures o.db == db
    ensures o.cache == c || o.cache == SetEx(c, UsersKey, UserTtl, Codec.Encode(UsersJson(db)))
    ensures !Fails(f, 0) && Hit(c, UsersKey).Some? ==>
      o.cache == c && o.response == ServeCached(Hit(c, UsersKey).value, FailureBody(ParseErrorMessage))
    ensures Succeeds(f, 3) && Hit(c, UsersKey).None? ==>
      && o.response == Reply(OK, SuccessData(UsersJson(db)))
      && o.cache == SetEx(c, UsersKey, UserTtl, Codec.Encode(UsersJson(db)))
    ensures Fails(f, 0) || (Hit(c, UsersKey).None? && (Fails(f, 1) || Fails(f, 2))) ==>
      o == Outcome(Reply(InternalError, FailureBody(f.message)), c, db)
  {
    if Fails(f, 0) then Outcome(Reply(InternalError, FailureBody(f.message)), c, db)
    else
      match Hit(c, UsersKey)
      case Some(text) => Outcome(ServeCached(text, FailureBody(ParseErrorMessage)), c, db)
      case None =>
        if Fails(f, 1) then Outcome(Reply(InternalError, FailureBody(f.message)), c, db)
        else
          var users := UsersJson(db);
          if Fails(f, 2) then Outcome(Reply(InternalError, FailureBody(f.message)), c, db)
          else Outcome(Reply(OK, SuccessData(users)), SetEx(c, UsersKey, UserTtl, Codec.Encode(users)), db)
  }

  /** `getUserById`: store calls are the cache read (0), the point lookup (1)
      and the cache write (2). */
  function GetUserById(p: Policy, c: Cache, db: Db, param: string, f: Fault): (o: Outcome)
    ensures o.db == db
    ensures o.cache == c ||
      (SqlId(param) in db.rows &&
       o.cache == SetEx(c, UserKey(p, param), UserTtl, Codec.Encode(RowJson(Row(SqlId(param), db.rows[SqlId(param)])))))
    ensures !Fails(f, 0) && Hit(c, UserKey(p, param)).Some? ==>
      o.cache == c && o.response == ServeCached(Hit(c, UserKey(p, param)).value, ErrorBody(ParseErrorMessage))
    ensures Succeeds(f, 2) && Hit(c, UserKey(p, param)).None? && SqlId(param) !in db.rows ==>
      o == Outcome(Reply(NotFound, ErrorBody("User not found")), c, db)
    ensures Succeeds(f, 3) && Hit(c, UserKey(p, param)).None? && SqlId(param) in db.rows ==>
      var row := RowJson(Row(SqlId(param), db.rows[SqlId(param)]));
      && o.response == Reply(OK, SuccessData(row))
      && o.cache == SetEx(c, UserKey(p, param), UserTtl, Codec.Encode(row))
    ensures Fails(f, 0) || (Hit(c, UserKey(p, param)).None? && (Fails(f, 1) || (Fails(f, 2) && SqlId(param) in db.rows))) ==>
      o == Outcome(Reply(InternalError, ErrorBody(f.message)), c, db)
  {
    var key := UserKey(p, param);
    if Fails(f, 0) then Outcome(Reply(InternalError, ErrorBody(f.message)), c, db)
    else
      match Hit(c, key)
      case Some(text) => Outcome(ServeCached(text, ErrorBody(ParseErrorMessage)), c, db)
      case None =>
        if Fails(f, 1) then Outcome(Reply(InternalError, ErrorBody(f.message)), c, db)
        else
          var rows := SelectById(db, param);
          if |rows| == 0 then Outcome(Reply(NotFound, ErrorBody("User not found")), c, db)
          else
            var user := RowJson(rows[0]);
            if Fails(f, 2) then Outcome(Reply(InternalError, ErrorBody(f.message)), c, db)
            else Outcome(Reply(OK, SuccessData(user)), SetEx(c, key, UserTtl, Codec.Encode(user)), db)
  }

  /** An element of `users` the loop lets through: not null (destructuring null
      throws) and with truthy `name` and `email`. */
  predicate WellFormedUser(u: Json) {
    u != Null && Truthy(Property(u, "name")) && Truthy(Property(u, "email"))
  }

  /** The `[name, email]` pair the statement binds for a well-formed element. */
  function UserOf(u: Json): User
    requires WellFormedUser(u)
  {
    User(Property(u, "name").value, Property(u, "email").value)
  }

  /** How the validation loop ends: every element let through, or stopped at
      the first element lacking a field (400) or being null (a TypeError). */
  datatype Validation = Accepted(users: seq<User>) | MissingField | NullUser

  /** The validation loop over `items[i..]`. */
  function Validate(items: seq<Json>, i: nat): (v: Validation)
    requires i <= |items|
    ensures v.Accepted? <==> forall k :: i <= k < |items| ==> WellFormedUser(items[k])
    ensures v.Accepted? ==> |v.users| == |items| - i
    ensures v.Accepted? ==> forall k :: i <= k < |items| ==> v.users[k - i] == UserOf(items[k])
    ensures v.NullUser? <==>
      exists k :: i <= k < |items| && items[k] == Null && forall m :: i <= m < k ==> WellFormedUser(items[m])
    decreases |items| - i
  {
    if i == |items| then Accepted([])
    else if items[i] == Null then NullUser
    else if !WellFormedUser(items[i]) then MissingField
    else
      var later := Validate(items, i + 1);
      var v := match later
        case Accepted(us) => Accepted([UserOf(items[i])] + us)
        case MissingField => MissingField
        case NullUser => NullUser;
      ValidateStep(items, i, later, v);
      v
  }

  /** What `Validate` states of `items[i + 1..]` carries over to `items[i..]`
      when `items[i]` is let through. */
  lemma ValidateStep(items: seq<Json>, i: nat, later: Validation, v: Validation)
    requires i < |items| && WellFormedUser(items[i])
    requires later.Accepted? <==> forall k :: i + 1 <= k < |items| ==> WellFormedUser(items[k])
    requires later.Accepted? ==> |later.users| == |items| - (i + 1)
    requires later.Accepted? ==> forall k :: i + 1 <= k < |items| ==> later.users[k - (i + 1)] == UserOf(items[k])
    requires later.NullUser? <==>
      exists k :: i + 1 <= k < |items| && items[k] == Null && forall m :: i + 1 <= m < k ==> WellFormedUser(items[m])
    requires v == match later
      case Accepted(us) => Accepted([UserOf(items[i])] + us)
      case MissingField => MissingField
      case NullUser => NullUser
    ensures v.Accepted? <==> forall k :: i <= k < |items| ==> WellFormedUser(items[k])
    ensures v.Accepted? ==> |v.users| == |items| - i
    ensures v.Accepted? ==> forall k :: i <= k < |items| ==> v.users[k - i] == UserOf(items[k])
    ensures v.NullUser? <==>
      exists k :: i <= k < |items| && items[k] == Null && forall m :: i <= m < k ==> WellFormedUser(items[m])
  {
    if later.NullUser? {
      var k :| i + 1 <= k < |items| && items[k] == Null && forall m :: i + 1 <= m < k ==> WellFormedUser(items[m]);
      assert forall m :: i <= m < k ==> WellFormedUser(items[m]);
    }
    if later.Accepted? {
      forall k | i < k < |items|
        ensures v.users[k - i] == UserOf(items[k])
      {
        assert v.users[k - i] == later.users[k - (i + 1)];
      }
    }
  }

  /** `req.body.users` is a non-empty array. */
  predicate IsUserList(body: Json): (b: bool)
    ensures b ==> body.Obj? && Truthy(Property(body, "users"))
    ensures Property(body, "users") == Some(Arr([])) ==> !b
    ensures Property(body, "users").Some? && !Property(body, "users").value.Arr? ==> !b
    ensures Property(body, "users").Some? && Property(body, "users").value.Arr? && Property(body, "users").value.items != [] ==> b
  {
    var users := Property(body, "users");
    users.Some? && users.value.Arr? && |users.value.items| > 0
  }

  /** A request `createUser` passes on to the table. */
  predicate ValidCreateRequest(body: Json) {
    && IsUserList(body)
    && forall k :: 0 <= k < |Property(body, "users").value.items| ==>
         WellFormedUser(Property(body, "users").value.items[k])
  }

  /** The `[name, email]` pairs of a valid request, in order. */
  function RequestedUsers(body: Json): (us: seq<User>)
    requires ValidCreateRequest(body)
    ensures |us| == |Property(body, "users").value.items|
    ensures forall k :: 0 <= k < |us| ==> us[k] == UserOf(Property(body, "users").value.items[k])
  {
    Validate(Property(body, "users").value.items, 0).users
  }

  /** The cache keys a successful `createUser` removes. */
  function CreateInvalidates(p: Policy, r: UpsertResult): (s: set<string>)
    ensures UsersKey in s
    ensures p == AsWritten ==> s == {UsersKey}
    ensures p == Corrected ==> forall i :: 0 <= i < |r.overwritten| ==> CanonicalUserKey(r.overwritten[i]) in s
    ensures forall k :: k in s && k != UsersKey ==>
      p == Corrected && exists i :: 0 <= i < |r.overwritten| && k == CanonicalUserKey(r.overwritten[i])
  {
    match p
    case AsWritten => {UsersKey}
    case Corrected => {UsersKey} + set i | 0 <= i < |r.overwritten| :: CanonicalUserKey(r.overwritten[i])
  }

  function CreatedBody(affected: nat): Json {
    Obj([
      Member("success", Bool(true)),
      Member("message", Str("Users created successfully")),
      Member("insertedCount", Num(affected)),
      Member("data", Obj([Member("affectedRows", Num(affected))]))
    ])
  }

  /** `createUser`: store calls are the upsert (0) and the invalidation (1). */
  function CreateUser(p: Policy, c: Cache, db: Db, col: UniqueColumn, body: Json, f: Fault): (o: Outcome)
    requires Valid(db)
    ensures Valid(o.db)
    ensures !ValidCreateRequest(body) ==> o.cache == c && o.db == db && (HasStatus(o.response, BadRequest) || HasStatus(o.response, InternalError))
    ensures !IsUserList(body) ==> o.response == Reply(BadRequest, ErrorBody("Users must be an array"))
    ensures IsUserList(body) && Validate(Property(body, "users").value.items, 0).MissingField? ==>
      o.response == Reply(BadRequest, ErrorBody("Name and email are required"))
    ensures IsUserList(body) && Validate(Property(body, "users").value.items, 0).NullUser? ==>
      o.response == Reply(InternalError, FailureBody(NullUserMessage))
    ensures ValidCreateRequest(body) && Fails(f, 0) ==>
      o == Outcome(Reply(InternalError, FailureBody(f.message)), c, db)
    ensures ValidCreateRequest(body) && Fails(f, 1) ==>
      o == Outcome(Reply(InternalError, FailureBody(f.message)), c, UpsertAll(db, col, RequestedUsers(body)).db)
    ensures ValidCreateRequest(body) && Succeeds(f, 2) ==>
      var r := UpsertAll(db, col, RequestedUsers(body));
      && o.response == Reply(Created, CreatedBody(r.affected))
      && o.db == r.db
      && o.cache == Del(c, CreateInvalidates(p, r))
    ensures p == AsWritten && HasStatus(o.response, Created) ==>
      UsersKey !in o.cache && SameOutside(c, o.cache, {UsersKey})
  {
    var users := Property(body, "users");
    if !IsUserList(body) then Outcome(Reply(BadRequest, ErrorBody("Users must be an array")), c, db)
    else
      match Validate(users.value.items, 0)
      case MissingField => Outcome(Reply(BadRequest, ErrorBody("Name and email are required")), c, db)
      case NullUser => Outcome(Reply(InternalError, FailureBody(NullUserMessage)), c, db)
      case Accepted(us) =>
        if Fails(f, 0) then Outcome(Reply(InternalError, FailureBody(f.message)), c, db)
        else
          var r := UpsertAll(db, col, us);
          if Fails(f, 1) then Outcome(Reply(InternalError, FailureBody(f.message)), c, r.db)
          else Outcome(Reply(Created, CreatedBody(r.affected)), Del(c, CreateInvalidates(p, r)), r.db)
  }

  /** A missing field is bound as SQL NULL. */
  function SqlValue(v: Option<Json>): Json {
    if v.Some? then v.value else Null
  }

  /** The row an update request writes. */
  function UpdatedUser(body: Json): (u: User)
    ensures Property(body, "name").Some? ==> u.name == Property(body, "name").value
    ensures Property(body, "name").None? ==> u.name == Null
    ensures Property(body, "email").Some? ==> u.email == Property(body, "email").value
    ensures Property(body, "email").None? ==> u.email == Null
    ensures !body.Obj? ==> u == User(Null, Null)
  {
    User(SqlValue(Property(body, "name")), SqlValue(Property(body, "email")))
  }

  /** After a row changed: drop `users` (call 1), then the row's entry (call 2),
      then answer. A failed deletion leaves the table change in place. */
  function InvalidateRow(c: Cache, db': Db, key: string, f: Fault, done: Json): (o: Outcome)
    ensures o.db == db'
    ensures Fails(f, 1) ==> o == Outcome(Reply(InternalError, ErrorBody(f.message)), c, db')
    ensures Fails(f, 2) ==> o == Outcome(Reply(InternalError, ErrorBody(f.message)), Del(c, {UsersKey}), db')
    ensures Succeeds(f, 3) ==>
      && o.response == Reply(OK, done)
      && UsersKey !in o.cache && key !in o.cache
      && SameOutside(c, o.cache, {UsersKey, key})
  {
    if Fails(f, 1) then Outcome(Reply(InternalError, ErrorBody(f.message)), c, db')
    else if Fails(f, 2) then Outcome(Reply(InternalError, ErrorBody(f.message)), Del(c, {UsersKey}), db')
    else Outcome(Reply(OK, done), Del(Del(c, {UsersKey}), {key}), db')
  }

  /** `updateUser`: store calls are the update (0) and the two deletions (1, 2). */
  function UpdateUser(p: Policy, c: Cache, db: Db, col: UniqueColumn, param: string, body: Json, f: Fault): (o: Outcome)
    requires Valid(db)
    ensures Valid(o.db)
    ensures Fails(f, 0) ==> o == Outcome(Reply(InternalError, ErrorBody(f.message)), c, db)
    ensures !Fails(f, 0) && SqlId(param) !in db.rows ==>
      o == Outcome(Reply(NotFound, ErrorBody("User not found")), c, db)
    ensures !Fails(f, 0) && UpdateById(db, col, SqlId(param), UpdatedUser(body)).DuplicateEntry? ==>
      o == Outcome(Reply(InternalError, ErrorBody(DuplicateEntryMessage)), c, db)
    ensures o.db == db || o.db == Db(db.rows[SqlId(param) := UpdatedUser(body)], db.nextId)
    ensures SqlId(param) in db.rows && UpdateById(db, col, SqlId(param), UpdatedUser(body)).Mutation? &&
            (Fails(f, 1) || Fails(f, 2)) ==>
      && o.response == Reply(InternalError, ErrorBody(f.message))
      && o.db == Db(db.rows[SqlId(param) := UpdatedUser(body)], db.nextId)
    ensures HasStatus(o.response, OK) <==>
      Succeeds(f, 3) && SqlId(param) in db.rows && UpdateById(db, col, SqlId(param), UpdatedUser(body)).Mutation?
    ensures HasStatus(o.response, OK) ==>
      && o.response == Reply(OK, MessageBody("User updated successfully"))
      && o.db == Db(db.rows[SqlId(param) := UpdatedUser(body)], db.nextId)
      && UsersKey !in o.cache && UserKey(p, param) !in o.cache
      && SameOutside(c, o.cache, {UsersKey, UserKey(p, param)})
  {
    var id := SqlId(param);
    if Fails(f, 0) then Outcome(Reply(InternalError, ErrorBody(f.message)), c, db)
    else
      match UpdateById(db, col, id, UpdatedUser(body))
      case DuplicateEntry => Outcome(Reply(InternalError, ErrorBody(DuplicateEntryMessage)), c, db)
      case Mutation(db', affected) =>
        if affected == 0 then Outcome(Reply(NotFound, ErrorBody("User not found")), c, db)
        else InvalidateRow(c, db', UserKey(p, param), f, MessageBody("User updated successfully"))
  }

  /** `deleteUser`: store calls are the deletion (0) and the two cache
      deletions (1, 2). */
  function DeleteUser(p: Policy, c: Cache, db: Db, param: string, f: Fault): (o: Outcome)
    requires Valid(db)
    ensures Valid(o.db)
    ensures Fails(f, 0) ==> o == Outcome(Reply(InternalError, ErrorBody(f.message)), c, db)
    ensures !Fails(f, 0) && SqlId(param) !in db.rows ==>
      o == Outcome(Reply(NotFound, ErrorBody("User not found")), c, db)
    ensures o.db == db || o.db == Db(db.rows - {SqlId(param)}, db.nextId)
    ensures SqlId(param) in db.rows && (Fails(f, 1) || Fails(f, 2)) ==>
      && o.response == Reply(InternalError, ErrorBody(f.message))
      && o.db == Db(db.rows - {SqlId(param)}, db.nextId)
    ensures HasStatus(o.response, OK) <==> Succeeds(f, 3) && SqlId(param) in db.rows
    ensures HasStatus(o.response, OK) ==>
      && o.response == Reply(OK, MessageBody("User deleted successfully"))
      && o.db == Db(db.rows - {SqlId(param)}, db.nextId)
      && UsersKey !in o.cache && UserKey(p, param) !in o.cache
      && SameOutside(c, o.cache, {UsersKey, UserKey(p, param)})
  {
    var id := SqlId(param);
    if Fails(f, 0) then Outcome(Reply(InternalError, ErrorBody(f.message)), c, db)
    else
      var m := DeleteById(db, id);
      if m.affected == 0 then Outcome(Reply(NotFound, ErrorBody("User not found")), c, db)
      else InvalidateRow(c, m.db, UserKey(p, param), f, MessageBody("User deleted successfully"))
  }
}

=== FILE: user_scenarios.dfy ===
/** Request sequences run against the user controller: reading twice, the
    insert/read/update/read walk-through, and the two sequences in which the
    controller as written serves a row the table no longer holds. */
module UserScenarios {
  import opened Options
  import opened Json
  import opened Http
  import opened Faults
  import opened CacheStore
  import opened RecordStore
  import opened UserController
  import opened Coherence
  import Codec
  import Decimal

  /** Reading the collection twice with no write between: the second read is a
      hit that serves the very rows the first fetched, without the table, and
      in a different shape (the bare array, not `{ success, data }`). */
  lemma ReadCollectionTwice(c: Cache, db: Db)
    requires Hit(c, UsersKey).None?
    ensures var o1 := GetUsers(c, db, NoFault);
            var o2 := GetUsers(o1.cache, o1.db, NoFault);
            && o1.response == Reply(OK, SuccessData(UsersJson(db)))
            && Hit(o1.cache, UsersKey).Some?
            && o2.response == Reply(OK, UsersJson(db))
            && o2.cache == o1.cache && o2.db == db
            && o1.response != o2.response
  {
    Codec.DecodeEncode(UsersJson(db));
  }

  /** The same for one user: a miss caches the row, and the next read is a hit
      answering with that row alone. */
  lemma ReadUserTwice(p: Policy, c: Cache, db: Db, param: string)
    requires Hit(c, UserKey(p, param)).None? && SqlId(param) in db.rows
    ensures var row := RowJson(Row(SqlId(param), db.rows[SqlId(param)]));
            var o1 := GetUserById(p, c, db, param, NoFault);
            var o2 := GetUserById(p, o1.cache, o1.db, param, NoFault);
            && o1.response == Reply(OK, SuccessData(row))
            && o2.response == Reply(OK, row)
            && o2.cache == o1.cache
  {
    Codec.DecodeEncode(RowJson(Row(SqlId(param), db.rows[SqlId(param)])));
  }

  lemma SqlIdOfOne()
    ensures SqlId("1") == 1 && SqlId("01") == 1
    ensures Decimal.FromNat(1) == "1"
  {
    assert Decimal.DigitRun("1") == 1 by {
      assert "1"[1..] == "";
    }
    assert "1"[..1] == "1";
    assert Decimal.Value("1") == 1 by {
      assert "1"[..0] == "";
    }
    assert Decimal.DigitRun("01") == 2 by {
      assert "01"[1..] == "1";
    }
    assert "01"[..2] == "01";
    assert Decimal.Value("01") == 1 by {
      assert "01"[..1] == "0";
      assert "0"[..0] == "";
    }
  }

  const Ann := User(Str("Ann"), Str("a@x.com"))
  const Ann2 := User(Str("Ann2"), Str("a@x.com"))
  const Bob := User(Str("Bob"), Str("a@x.com"))

  /** The table holding Ann as row 1. */
  const AnnTable := Db(map[1 := Ann], 2)

  function UserObject(u: User): Json {
    Obj([Member("name", u.name), Member("email", u.email)])
  }

  /** `{ users: [ { name, email } ] }` */
  function CreateBody(u: User): Json {
    Obj([Member("users", Arr([UserObject(u)]))])
  }

  lemma CreateBodyIsValid(u: User)
    requires u.name.Str? && u.name.s != "" && u.email.Str? && u.email.s != ""
    ensures ValidCreateRequest(CreateBody(u))
    ensures RequestedUsers(CreateBody(u)) == [u]
  {
    var item := UserObject(u);
    assert Property(CreateBody(u), "users") == Some(Arr([item]));
    UserObjectFields(u);
    assert WellFormedUser(item);
  }

  lemma UserObjectFields(u: User)
    ensures Property(UserObject(u), "name") == Some(u.name)
    ensures Property(UserObject(u), "email") == Some(u.email)
  {
    var ms := UserObject(u).members;
    assert ms[..1] == [Member("name", u.name)];
    assert LastMember(ms[..1], "name") == Some(u.name);
  }

  lemma UpdatedUserOfBody(u: User)
    ensures UpdatedUser(UserObject(u)) == u
  {
    UserObjectFields(u);
  }

  /** Bob's email collides with row 1, so the upsert overwrites it. */
  lemma UpsertBobOverAnn()
    ensures UpsertAll(AnnTable, UniqueEmail, [Bob]) == UpsertResult(Db(map[1 := Bob], 2), 2, [1])
  {
    assert FindCollision(AnnTable.rows, UniqueEmail, Bob, 1, 2) == Some(1);
    assert UpsertOne(AnnTable, UniqueEmail, Bob) == UpsertStep(Db(map[1 := Bob], 2), 2, Some(1));
    assert [Bob][1..] == [];
  }

  /** Row 1 is the only row, so rewriting it meets no other unique value. */
  lemma UpdateAnnTable(u: User)
    ensures UpdateById(AnnTable, UniqueEmail, 1, u) == Mutation(Db(map[1 := u], 2), 1)
  {
    assert (AnnTable.rows - {1}) == map[];
  }

  /** Inserting Ann into an empty table gives her id 1; reading her caches the
      row; updating her invalidates it; reading again fetches the new row. */
  lemma InsertReadUpdateRead(p: Policy)
    ensures var o1 := CreateUser(p, map[], Db(map[], 1), UniqueEmail, CreateBody(Ann), NoFault);
            var o2 := GetUserById(p, o1.cache, o1.db, "1", NoFault);
            var o3 := UpdateUser(p, o2.cache, o2.db, UniqueEmail, "1", UserObject(Ann2), NoFault);
            var o4 := GetUserById(p, o3.cache, o3.db, "1", NoFault);
            && o1.response == Reply(Created, CreatedBody(1))
            && o1.db == AnnTable
            && o2.response == Reply(OK, SuccessData(RowJson(Row(1, Ann))))
            && UserKey(p, "1") in o2.cache
            && o3.response == Reply(OK, MessageBody("User updated successfully"))
            && UserKey(p, "1") !in o3.cache
            && o4.response == Reply(OK, SuccessData(RowJson(Row(1, Ann2))))
  {
    SqlIdOfOne();
    CreateBodyIsValid(Ann);
    UpdatedUserOfBody(Ann2);
    var empty := Db(map[], 1);
    var r := UpsertAll(empty, UniqueEmail, [Ann]);
    assert UpsertOne(empty, UniqueEmail, Ann).db == AnnTable;
    assert r.db == AnnTable && r.affected == 1;
    var o1 := CreateUser(p, map[], empty, UniqueEmail, CreateBody(Ann), NoFault);
    assert UsersKey !in o1.cache;
    assert o1.cache == map[];
    var o2 := GetUserById(p, o1.cache, o1.db, "1", NoFault);
    var o3 := UpdateUser(p, o2.cache, o2.db, UniqueEmail, "1", UserObject(Ann2), NoFault);
    UpdateAnnTable(Ann2);
    assert o3.db == Db(map[1 := Ann2], 2);
  }

  /** As written: a `createUser` whose email collides with row 1 overwrites the
      row but drops only `users`, so the next read of user 1 is a hit serving
      Ann although the table holds Bob. */
  lemma UpsertOverwriteServesStaleRow()
    ensures var o1 := GetUserById(AsWritten, map[], AnnTable, "1", NoFault);
            var o2 := CreateUser(AsWritten, o1.cache, o1.db, UniqueEmail, CreateBody(Bob), NoFault);
            var o3 := GetUserById(AsWritten, o2.cache, o2.db, "1", NoFault);
            && o2.db.rows[1] == Bob
            && o3.response == Reply(OK, RowJson(Row(1, Ann)))
  {
    SqlIdOfOne();
    CreateBodyIsValid(Bob);
    UpsertBobOverAnn();
    var row := RowJson(Row(1, Ann));
    Codec.DecodeEncode(row);
    var o1 := GetUserById(AsWritten, map[], AnnTable, "1", NoFault);
    assert UserKey(AsWritten, "1") == "user:1";
    assert o1.cache == map["user:1" := Entry(Codec.Encode(row), UserTtl)];
    var o2 := CreateUser(AsWritten, o1.cache, o1.db, UniqueEmail, CreateBody(Bob), NoFault);
    assert o2.db == Db(map[1 := Bob], 2);
    assert o2.cache == Del(o1.cache, {UsersKey});
    assert Hit(o2.cache, "user:1") == Some(Codec.Encode(row));
  }

  /** Corrected: the same sequence drops `user:1` as well, and the next read
      fetches Bob. */
  lemma UpsertOverwriteThenFreshRead()
    ensures var o1 := GetUserById(Corrected, map[], AnnTable, "1", NoFault);
            var o2 := CreateUser(Corrected, o1.cache, o1.db, UniqueEmail, CreateBody(Bob), NoFault);
            var o3 := GetUserById(Corrected, o2.cache, o2.db, "1", NoFault);
            && o2.db.rows[1] == Bob
            && o3.response == Reply(OK, SuccessData(RowJson(Row(1, Bob))))
  {
    SqlIdOfOne();
    CreateBodyIsValid(Bob);
    UpsertBobOverAnn();
    var o1 := GetUserById(Corrected, map[], AnnTable, "1", NoFault);
    var r := UpsertAll(AnnTable, UniqueEmail, [Bob]);
    assert CanonicalUserKey(1) in CreateInvalidates(Corrected, r);
    var o2 := CreateUser(Corrected, o1.cache, o1.db, UniqueEmail, CreateBody(Bob), NoFault);
    assert o2.db == Db(map[1 := Bob], 2);
    assert o2.cache == map[];
  }

  /** As written: reading `/users/01` caches the row under `user:01`; updating
      `/users/1` drops `user:1` only, so reading `/users/01` again serves the
      old row. */
  lemma AliasedParamServesStaleRow()
    ensures var o1 := GetUserById(AsWritten, map[], AnnTable, "01", NoFault);
            var o2 := UpdateUser(AsWritten, o1.cache, o1.db, UniqueEmail, "1", UserObject(Ann2), NoFault);
            var o3 := GetUserById(AsWritten, o2.cache, o2.db, "01", NoFault);
            && HasStatus(o2.response, OK)
            && o2.db.rows[1] == Ann2
            && o3.response == Reply(OK, RowJson(Row(1, Ann)))
  {
    SqlIdOfOne();
    UpdatedUserOfBody(Ann2);
    UpdateAnnTable(Ann2);
    var row := RowJson(Row(1, Ann));
    Codec.DecodeEncode(row);
    var o1 := GetUserById(AsWritten, map[], AnnTable, "01", NoFault);
    assert UserKey(AsWritten, "01") == "user:01";
    assert o1.cache == map["user:01" := Entry(Codec.Encode(row), UserTtl)];
    var o2 := UpdateUser(AsWritten, o1.cache, o1.db, UniqueEmail, "1", UserObject(Ann2), NoFault);
    assert UserKey(AsWritten, "1") == "user:1";
    assert "user:01" != "user:1" && "user:01" != UsersKey;
    assert UpdateById(o1.db, UniqueEmail, 1, Ann2).Mutation?;
    assert HasStatus(o2.response, OK);
    assert o2.db == Db(map[1 := Ann2], 2);
    assert Hit(o2.cache, "user:01") == Some(Codec.Encode(row));
  }

  /** Corrected: both requests use `user:1`, and the last read fetches the
      updated row. */
  lemma AliasedParamThenFreshRead()
    ensures var o1 := GetUserById(Corrected, map[], AnnTable, "01", NoFault);
            var o2 := UpdateUser(Corrected, o1.cache, o1.db, UniqueEmail, "1", UserObject(Ann2), NoFault);
            var o3 := GetUserById(Corrected, o2.cache, o2.db, "01", NoFault);
            && o2.db.rows[1] == Ann2
            && o3.response == Reply(OK, SuccessData(RowJson(Row(1, Ann2))))
  {
    SqlIdOfOne();
    UpdatedUserOfBody(Ann2);
    UpdateAnnTable(Ann2);
  }

  /** As written, for any table and any create request: when a user's entry
      holds their row, the create leaves it, and the next read serves the row
      as it was before the create. That is the current row only when the
      upsert did not change it. */
  lemma UpsertOverwriteLeavesStaleEntry(c: Cache, db: Db, col: UniqueColumn, body: Json, param: string)
    requires Valid(db) && ValidCreateRequest(body)
    requires SqlId(param) in db.rows
    requires Hit(c, UserKey(AsWritten, param)) == Some(Codec.Encode(RowJson(Row(SqlId(param), db.rows[SqlId(param)]))))
    ensures var id := SqlId(param);
            var o1 := CreateUser(AsWritten, c, db, col, body, NoFault);
            var o2 := GetUserById(AsWritten, o1.cache, o1.db, param, NoFault);
            && id in o1.db.rows
            && o2.response == Reply(OK, RowJson(Row(id, db.rows[id])))
            && (ServesRow(o2.response, RowJson(Row(id, o1.db.rows[id]))) <==> o1.db.rows[id] == db.rows[id])
  {
    var id := SqlId(param);
    var key := UserKey(AsWritten, param);
    UserKeysAgree(AsWritten, param, param);
    Codec.DecodeEncode(RowJson(Row(id, db.rows[id])));
    var o1 := CreateUser(AsWritten, c, db, col, body, NoFault);
    assert key in o1.cache && o1.cache[key] == c[key];
  }

  /** As written, for any two parameters naming the same row: when the entry
      under the read parameter holds the row, an update through the other
      parameter leaves it, and the next read serves the row as it was before
      the update, which is stale whenever the update changed the row. */
  lemma AliasedKeyLeavesStaleEntry(c: Cache, db: Db, col: UniqueColumn, writeParam: string, body: Json, readParam: string)
    requires Valid(db)
    requires SqlId(readParam) == SqlId(writeParam) && readParam != writeParam
    requires SqlId(readParam) in db.rows
    requires Hit(c, UserKey(AsWritten, readParam)) == Some(Codec.Encode(RowJson(Row(SqlId(readParam), db.rows[SqlId(readParam)]))))
    ensures var id := SqlId(readParam);
            var o1 := UpdateUser(AsWritten, c, db, col, writeParam, body, NoFault);
            var o2 := GetUserById(AsWritten, o1.cache, o1.db, readParam, NoFault);
            && id in o1.db.rows
            && o2.response == Reply(OK, RowJson(Row(id, db.rows[id])))
            && (ServesRow(o2.response, RowJson(Row(id, o1.db.rows[id]))) <==> o1.db.rows[id] == db.rows[id])
  {
    var id := SqlId(readParam);
    var key := UserKey(AsWritten, readParam);
    UserKeysAgree(AsWritten, readParam, writeParam);
    Codec.DecodeEncode(RowJson(Row(id, db.rows[id])));
    var o1 := UpdateUser(AsWritten, c, db, col, writeParam, body, NoFault);
    assert key in o1.cache && o1.cache[key] == c[key];
  }
}
